=== FILE: README.md ===
# Upload lifecycle of the beats4cheese marketplace, in Dafny

This project models the functional core of the beats4cheese web application's
upload lifecycle and the views derived from it:

- **Upload initiation** (`POST /api/upload/init`): authentication and input checks,
  the derived object path `originals/{user}/{upload}/{filename}`, the `uploads` row in
  status `uploading`, the one-time signed write URL (`upsert: false`) and the linked
  `assets` row. The database and storage bucket are an abstract `Store` (two maps and a
  log of signed-URL requests). The caller's identity, the generated ids, the four clock
  readings (one `new Date()` per timestamp) and the success of each external call are
  inputs (`Oracle`).
- **Publish toggle** on the dashboard: the next-status rule, the in-flight guard, the
  disabled state, the label, and "adopt the new status only on an ok response".
- **Dashboard data**: the two `uploads` queries (with and without a `bpm` tag), the bpm
  parse, the merge and stable newest-first sort, the two counters, and the BPM and
  status-badge display rules.
- **Client uploader**: audio-only selection, removal by index, the title derived from a
  file name, the per-file init → PUT → finalize progress machine, and the sequential
  upload loop with its list of progress records.
- **Browse page**: the BPM filter inputs, the search query string, the preview URL, and
  the download handler with its `downloading` marker.

JavaScript's `parseInt` and `Number.prototype.toString` on integers are modelled in
`Decimal`, with the round trip `parseInt(i.toString()) == i` proved.

Modules: `Common` (options, falsy strings), `Decimal`, `UploadInit`, `UploadToggle`,
`Dashboard`, `Uploader`, `Browse`, one file each.

Three details of the code shape the model: the uploader never sets a record
to `processing`; the toggle requests `published` for any status other than `published`,
including `uploading`; and the browse page sends the BPM bounds without checking that
min ≤ max.

## Model

| member | source | states |
|---|---|---|
| `UploadInit.Initiate` | src/app/api/upload/init/route.ts:6-89 | 401 exactly when there is no user id, 400 exactly when title or filename is missing or empty, and then nothing is written; a failed or colliding upload insert also leaves the store unchanged; the upload table changes only for a valid request, by the one row with the given id, user, title, country GB and status `uploading`; a signed-URL request is added only after that row, and it is for the derived path in `originals` with `upsert: false`; with no signed URL, or any other non-200 reply, the asset table is unchanged; 200 exactly when every step succeeds, and then the reply carries the upload id, the signed URL and the path, and the new asset row links the upload and holds that path; existing rows are never overwritten |
| `UploadInit.OriginalPath` | src/app/api/upload/init/route.ts:26 | the path starts with `originals/` and has the length of its parts plus two separators |
| `UploadInit.OriginalPathRoundTrip` | src/app/api/upload/init/route.ts:26 | when the user id and upload id contain no `/`, the path splits back into exactly the user id, upload id and filename |
| `UploadInit.OriginalPathsDistinct` | src/app/api/upload/init/route.ts:22-26 | two different upload ids of one user never share an original path |
| `UploadInit.InitiatePreservesLinks` | src/app/api/upload/init/route.ts:28-76 | on every path, if every asset row pointed at an upload row before, it still does after |
| `UploadInit.LateFailureLeavesOrphan` | src/app/api/upload/init/route.ts:43-76 | when the signed URL or the asset insert fails after the upload row was written, the reply is 500 and an `uploading` row remains that no asset refers to (no rollback) |
| `UploadInit.SuccessLinksExactlyOneAsset` | src/app/api/upload/init/route.ts:60-83 | after a success, the new asset is the only one pointing at the new upload, and its path equals the `path` in the reply |
| `UploadToggle.NextStatus` | src/app/dashboard/UploadToggle.tsx:18 | the requested status is `pending` exactly when the current one is `published`, and `published` otherwise |
| `UploadToggle.NextStatusInvolution` | src/app/dashboard/UploadToggle.tsx:18 | toggling twice gives back the start exactly when it is `published` or `pending` |
| `UploadToggle.Label` | src/app/dashboard/UploadToggle.tsx:65 | the label is "Published" exactly when the status is `published`, else "Pending" |
| `UploadToggle.Disabled` | src/app/dashboard/UploadToggle.tsx:42-47 | the button is disabled for a `processing` upload and while a request is in flight, and in no other case |
| `UploadToggle.HandleToggle` | src/app/dashboard/UploadToggle.tsx:14-39 | a click while loading sends nothing and changes nothing; otherwise it sends the next status and clears loading; the shown status changes only on an ok reply, and an ok reply shows exactly the next status |
| `UploadToggle.ButtonClick` | src/app/dashboard/UploadToggle.tsx:42-47 | the button does nothing while the status is `processing` or a request is in flight, and runs the handler otherwise |
| `UploadToggle.ProcessingIsStuck` | src/app/dashboard/UploadToggle.tsx:42 | clicking never sends a request for, or changes, a `processing` upload |
| `UploadToggle.SuccessfulClickShowsRequestedStatus` | src/app/dashboard/UploadToggle.tsx:29-31 | after an ok click the shown status is the next status, and the label reads "Published" exactly when it did not before |
| `UploadToggle.ToggleTwiceRestores` | src/app/dashboard/UploadToggle.tsx:14-39 | two ok clicks on a published or pending upload restore its state and send the other status, then the original one |
| `Dashboard.BpmTags` | src/app/dashboard/page.tsx:55 | the embedded tags are exactly the upload's tags named `bpm`, and the first of them is the upload's first `bpm` tag in table order |
| `Dashboard.TaggedQuery` | src/app/dashboard/page.tsx:45-56 | every row is some upload of the user that has a bpm tag, with that upload's id, title, status and creation time and exactly its `bpm` tags; every such upload's row is returned |
| `Dashboard.UntaggedQuery` | src/app/dashboard/page.tsx:59-63 | every row is some upload of the user whose id is not excluded, with that upload's columns; every such upload's row is returned |
| `Dashboard.FirstAnswer` | src/app/dashboard/page.tsx:45-56 | the page reads the first query's rows when it answered and nothing when it failed; every row read comes from an upload of the user with a bpm tag |
| `Dashboard.SecondAnswer` | src/app/dashboard/page.tsx:59-63 | nothing when the second query failed; otherwise a user upload's row is read exactly when its id is not excluded, where the excluded ids are the first answer's, or, when that answer is empty and the filter is `(null)`, the ids the database takes `(null)` to exclude; every row read comes from an upload of the user |
| `Dashboard.BpmOf` | src/app/dashboard/page.tsx:72 | bpm is null exactly when there is no bpm tag or the first one's value is missing or empty, and otherwise the `parseInt` of that value |
| `Dashboard.FromTagged` | src/app/dashboard/page.tsx:67-73 | each row becomes an entry with the same columns and its parsed bpm, position by position |
| `Dashboard.FromPlain` | src/app/dashboard/page.tsx:74-80 | each row becomes an entry with the same columns and bpm null, position by position |
| `Dashboard.InsertByDate` | src/app/dashboard/page.tsx:81 | inserting into a newest-first list keeps it newest first and adds exactly the one entry |
| `Dashboard.SortNewestFirst` | src/app/dashboard/page.tsx:81 | the result is ordered by non-increasing creation time and is a permutation of the input |
| `Dashboard.Merge` | src/app/dashboard/page.tsx:66-81 | the combined list is newest first and a permutation of the converted results of both queries |
| `Dashboard.DashboardPage` | src/app/dashboard/page.tsx:15-81 | the sign-in prompt shows exactly when there is no user; otherwise the entries are a permutation of the converted answers of the two queries, newest first, the total is their number and the published counter counts the `published` ones |
| `Dashboard.PublishedCount` | src/app/dashboard/page.tsx:153 | the published counter never exceeds the number of entries |
| `Dashboard.PublishedCountIsStatusCount` | src/app/dashboard/page.tsx:153 | the published counter equals the number of occurrences of `published` among the entries' statuses |
| `Dashboard.PublishedCountSort` | src/app/dashboard/page.tsx:153 | sorting does not change how many entries are `published` |
| `Dashboard.PublishedCountMerge` | src/app/dashboard/page.tsx:153 | the published counter is the sum of the published rows of the two queries |
| `Dashboard.SignedOutIgnoresDatabase` | src/app/dashboard/page.tsx:16-39 | without a user the page is the sign-in prompt whatever the database holds, so no query result is used |
| `Dashboard.InMerge` | src/app/dashboard/page.tsx:66-80 | an entry is listed exactly when one of the two queries produced it |
| `Dashboard.MergeIds` | src/app/dashboard/page.tsx:66-80 | the listed ids are the ids of the first query together with those of the second |
| `Dashboard.UntaggedEntriesHaveNoBpm` | src/app/dashboard/page.tsx:74-80 | an entry that did not come from the first query came from the second and has bpm null |
| `Dashboard.QueriesDisjoint` | src/app/dashboard/page.tsx:63 | the second query returns no id the first query returned |
| `Dashboard.QueriesCoverUser` | src/app/dashboard/page.tsx:45-63 | the ids of the first query and of the second, which excludes them, together are exactly the user's upload ids |
| `Dashboard.BoardListsUserUploads` | src/app/dashboard/page.tsx:45-81 | when both queries answer and the first returns at least one row, the listed ids are exactly the ids of the user's uploads |
| `Dashboard.TaggedFailureShowsNoBpm` | src/app/dashboard/page.tsx:59-80 | when the first query fails, every listed entry has bpm null, whatever the second query answers |
| `Dashboard.ShownBpmIsOwnTag` | src/app/dashboard/page.tsx:45-73 | an entry that shows a bpm is an upload of the user with a bpm tag, shown with its own columns and the parse of its first bpm tag's value |
| `Dashboard.BpmTagsAppend` | src/app/dashboard/page.tsx:55 | the bpm tags of two concatenated tag lists are the bpm tags of the first followed by those of the second, so table order is kept |
| `Dashboard.TaggedQueryOncePerUpload` | src/app/dashboard/page.tsx:45-56 | with unique upload ids the first query returns no two rows with the same id |
| `Dashboard.UntaggedQueryOncePerUpload` | src/app/dashboard/page.tsx:59-63 | with unique upload ids the second query returns no two rows with the same id |
| `Dashboard.TaggedRowsCount` | src/app/dashboard/page.tsx:45-56 | first-query rows with distinct ids carry as many ids as there are rows |
| `Dashboard.PlainRowsCount` | src/app/dashboard/page.tsx:59-63 | second-query rows with distinct ids carry as many ids as there are rows |
| `Dashboard.QueriesCountUser` | src/app/dashboard/page.tsx:45-63 | with unique upload ids the two queries together return exactly as many rows as the user has uploads |
| `Dashboard.TotalCountsUserUploads` | src/app/dashboard/page.tsx:45-131 | with unique upload ids, both queries answering and the first returning a row, the total shown is the number of the user's uploads |
| `Dashboard.ShownBpmIsFirstTag` | src/app/dashboard/page.tsx:55-72 | the bpm shown for a tagged upload is the parse of its first `bpm` tag's value in table order, or null when that value is empty |
| `Dashboard.ListedEntriesAreUserUploads` | src/app/dashboard/page.tsx:45-81 | whichever queries answer and whatever `(null)` excludes, every listed entry is an upload of the signed-in user, shown either with its first bpm tag or with bpm null |
| `Dashboard.TaggedEntryFromUpload` | src/app/dashboard/page.tsx:67-73 | an entry converted from first-query rows is an upload of the user with a bpm tag, shown with its own columns |
| `Dashboard.PlainEntryFromUpload` | src/app/dashboard/page.tsx:74-80 | an entry converted from second-query rows is an upload of the user, shown with its own columns and bpm null |
| `Dashboard.BpmText` | src/app/dashboard/page.tsx:217 | the text is "N/A" exactly when bpm is null, NaN or 0; otherwise it is the bpm's decimal rendering followed by " BPM", and that rendering parses back to the bpm |
| `Dashboard.DistinctBpmsShowDistinctTexts` | src/app/dashboard/page.tsx:217 | two different truthy bpms are shown as different texts |
| `Dashboard.StatusBadge` | src/app/dashboard/page.tsx:221-227 | green exactly for `published`, yellow exactly for `processing`, gray for anything else |
| `Uploader.AudioOnly` | src/components/Uploader.tsx:33-35 | a file is kept exactly when it was picked and its MIME type starts with `audio/` |
| `Uploader.IsAudio` | src/components/Uploader.tsx:33-35 | a file is audio exactly when its MIME type's first six characters are `audio/` |
| `Uploader.AudioOnlyAppend` | src/components/Uploader.tsx:41-43 | the filter distributes over concatenation, so kept files stay in the order picked |
| `Uploader.AudioOnlyKeepsAudio` | src/components/Uploader.tsx:33-35 | a list of audio files passes unchanged |
| `Uploader.AddFiles` | src/components/Uploader.tsx:37 | the current files stay in front, and what follows them is exactly the audio files of the pick, in order |
| `Uploader.AddFilesTwice` | src/components/Uploader.tsx:40-45 | two picks in a row add the same files as one pick of both |
| `Uploader.RemoveFile` | src/components/Uploader.tsx:47-49 | an index in range removes exactly that file and keeps the rest in order; any other index changes nothing |
| `Uploader.RemoveFileShifts` | src/components/Uploader.tsx:48 | the list shrinks by one, files before the index keep their place and later ones move up by one |
| `Uploader.TitleFromFilename` | src/components/Uploader.tsx:71 | the title is a prefix of the name; it differs from the name exactly when the name ends in `.` plus a non-empty run without `/` or `.`, and then that run and its dot are what was removed |
| `Uploader.ExtensionUnique` | src/components/Uploader.tsx:71 | the extension pattern matches at most one position of a name |
| `Uploader.TitleSplitsName` | src/components/Uploader.tsx:71 | when a title differs from its name, the name is the title, a dot and an extension |
| `Uploader.TitleExamples` | src/components/Uploader.tsx:71 | `beat.mp3` gives `beat`, `.mp3` gives the empty title, `a.b.mp3` gives `a.b`, and `track.` and `dir.v2/track` are unchanged |
| `Uploader.TitleNotIdempotent` | src/components/Uploader.tsx:71 | deriving a title twice can remove a second extension |
| `Uploader.UploadFile` | src/components/Uploader.tsx:51-126 | the record is for the file it ran; it ends completed at 100 exactly when all three replies are ok, at 50 exactly when only finalize failed, and in error otherwise; it stays at 0 unless both init and the PUT were ok; it carries init's upload id once init answered ok, and no upload id when init failed |
| `Uploader.RunReportsOutcome` | src/components/Uploader.tsx:76-123 | a non-ok reply leaves that step's own message, a thrown error its message or "Upload failed", and a completed run the finalize answer's bpm and duration |
| `Uploader.RunSendsInOrder` | src/components/Uploader.tsx:65-111 | init, carrying the derived title and the file name, is always sent; the PUT to the signed URL only after an ok init; finalize with the upload id only after an ok PUT |
| `Uploader.RunMovesForward` | src/components/Uploader.tsx:52-124 | the record starts pending at 0, is uploading before init goes out, never moves back in status or percentage, never shows `processing`, and ends as the result; every state shows 0, 50 or 100, and a non-zero percentage only after an ok init and an ok PUT; an upload id appears only after an ok init and is init's id |
| `Uploader.CompletedMessage` | src/components/Uploader.tsx:117 | the message reads "Upload complete! BPM: ", the answer's bpm, ", Duration: ", its duration and "s", in that order |
| `Uploader.ThrownMessage` | src/components/Uploader.tsx:123 | an exception leaves its own message, and "Upload failed" when it carries none |
| `Uploader.FailureMessage` | src/components/Uploader.tsx:77-123 | a non-ok step leaves that step's own message (the error it throws), and an exception the thrown message or "Upload failed" |
| `Uploader.FindFile` | src/components/Uploader.tsx:138 | the index found is the first record for the file, and none means no record has it |
| `Uploader.ReplaceOrAppend` | src/components/Uploader.tsx:137-145 | when the file has records, the first of them is replaced by the result and nothing else changes; when it has none, the result is appended |
| `Uploader.RecordRun` | src/components/Uploader.tsx:137-145 | each finished file adds one record at the end, holding its result; when the file already had a record, the first such record is overwritten by the result as well; otherwise the earlier records are unchanged |
| `Uploader.RepeatedFileShowsLastRun` | src/components/Uploader.tsx:137-145 | when the same file runs twice, both of its records show the second run's result |
| `Uploader.Results` | src/components/Uploader.tsx:135-136 | one result per file, each for the file in the same position |
| `Uploader.NextFileIsNew` | src/components/Uploader.tsx:138 | with distinct files, no record so far is for the file about to run, so `findIndex` finds nothing |
| `Uploader.RecordNextFile` | src/components/Uploader.tsx:137-145 | with distinct files, after each run the records are exactly the results of the files run so far, in order |
| `Uploader.RunNextFile` | src/components/Uploader.tsx:135-145 | one pass of the loop appends that file's requests to the log, adds one record and, for distinct files, exactly its result; the file list and `isUploading` do not change |
| `Uploader.UploadInOrder` | src/components/Uploader.tsx:134-146 | the files run in order: one snapshot per file, each with the same files and `isUploading` as at the start, the last one the final state; the log ends with every file's requests in file order, there is one record per file, and for distinct files the records are the files' results |
| `Uploader.RanAll` | src/components/Uploader.tsx:134-146 | once the loop has run every file, the log holds all files' requests in order and, for distinct files, the records are exactly the files' results |
| `Uploader.HandleUpload` | src/components/Uploader.tsx:128-149 | with no files nothing changes; otherwise the records are cleared, the files run one after another in order, every snapshot between files shows `isUploading` set and the same files, `isUploading` is cleared at the end, the request log is the files' requests in order, there is one record per file, and for distinct files record i is file i's result |
| `Browse.MinBpmInput` | src/app/browse/page.tsx:123 | the min bound is the parsed integer, and 0 when the parse gives NaN |
| `Browse.MaxBpmInput` | src/app/browse/page.tsx:137 | the max bound is the parsed integer unless the parse gives NaN or 0, and then 300; it is never 0 |
| `Browse.BpmInputsKeepTypedNumbers` | src/app/browse/page.tsx:123-137 | a typed integer is kept in both boxes, except that 0 in the max box becomes 300 |
| `Browse.EmptyInputsGiveDefaults` | src/app/browse/page.tsx:123-137 | an empty box gives 0 and 300, and typing 0 as max gives 300 |
| `Browse.SearchQuery` | src/app/browse/page.tsx:28-31 | the query string starts with `bpmMin=`, and its two parameters read back as exactly the decimal renderings (`toString()`) of the min and max bounds |
| `Browse.SearchQueryInjective` | src/app/browse/page.tsx:28-31 | two filters that send the same query string have the same min and the same max |
| `Browse.SearchQueryRoundTrip` | src/app/browse/page.tsx:28-33 | reading the query back with `parseInt` gives both bounds unchanged, for any pair, ordered or not |
| `Browse.PreviewUrl` | src/app/browse/page.tsx:91-97 | null exactly for a missing or empty path; otherwise base plus `/storage/v1/object/public/previews/`, followed by exactly the path |
| `Browse.PreviewUrlInjective` | src/app/browse/page.tsx:91-97 | distinct preview paths give distinct URLs |
| `Browse.ClassifyDownload` | src/app/browse/page.tsx:63-82 | insufficient credits exactly on 402, carrying the needed and available amounts; a redirect exactly on an ok answer with a URL, to that URL; any other non-ok answer fails with the server's error or a default; an ok answer without a URL fails with "No download URL received"; a thrown request fails with the exception's message, or "Unknown error" when it carries none |
| `Browse.HandleDownload` | src/app/browse/page.tsx:52-89 | the handler first marks the listing as downloading, then posts, and its last write clears the mark, on every answer including a thrown one; no other write touches the mark |
| `Browse.DownloadTry` | src/app/browse/page.tsx:63-82 | the `try` block either performs one reaction (the 402 alert or the navigation) and ends normally, or performs none and raises |
| `Browse.DownloadCatch` | src/app/browse/page.tsx:83-85 | the `catch` block alerts once exactly when the `try` block raised |
| `Browse.DownloadFollowsClassification` | src/app/browse/page.tsx:52-89 | the one reaction between the POST and the clearing write is the one the answer's classification calls for |
| `Browse.NavigatesOnlyOnSuccess` | src/app/browse/page.tsx:63-82 | the handler navigates only after an ok answer that carries a URL, and only to that URL |
| `Browse.RedirectOnlyOnSuccess` | src/app/browse/page.tsx:63-82 | the page is left only after an ok answer, never on 402 |
| `Decimal.ParseInt` | src/app/browse/page.tsx:123 | NaN exactly when no digit follows the optional sign; an empty string is NaN; a negative result needs a leading minus |
| `Decimal.IntToString` | src/app/browse/page.tsx:29-30 | the rendering is non-empty, starts with a minus exactly for negative numbers, and is all digits otherwise |
| `Decimal.ParseIntToString` | src/app/browse/page.tsx:29-30 | `parseInt` of an integer's decimal rendering gives the integer back |
| `Decimal.IntToStringInjective` | src/app/browse/page.tsx:29-30 | distinct integers render differently, which is why the query string determines both bounds |
| `Decimal.Truthy` | src/app/browse/page.tsx:123-137 | a number is falsy exactly when it is NaN or 0 |
| `Common.FalsyText` | src/app/api/upload/init/route.ts:11-19 | a string-or-null is falsy exactly when it is null or empty |

## Left out

- The stub routes `src/app/api/upload/finalize/route.ts`, `src/app/api/webhooks/stripe/route.ts`, `src/app/api/feedback/tag/route.ts`, `src/app/api/purchase/credits/route.ts`, `src/app/api/search/route.ts` and `src/app/api/download/[id]/route.ts`: each returns a constant body; there is no ledger, purchase, search filter or transcoding code to model. Their answers are inputs of the client models.
- The status PATCH route `src/app/api/uploads/[id]/route.ts`: not part of this model; its reply is an input of the toggle.
- `src/lib/profile.ts`, `src/lib/mail.ts`, `src/app/upload/page.tsx`, `src/app/wallet/WalletComponent.tsx`: placeholders, SMTP I/O, an auth gate and rendering.
- `Dashboard.DashboardPage`: `src/lib/profile.ts` exports no `ensureProfile`, so the import at `src/app/dashboard/page.tsx:2` fails the build, or the call at line 42 throws, before either query runs. The model assumes the call returns, and the credits card built from its result is not modelled.
- Clerk, Supabase, `uuid` and `fetch` are inputs: an optional user id, given ids, success flags, reply statuses and decoded bodies. An exception thrown by `auth()` and a title or filename that is a non-string JSON value are not modelled; a body that is not JSON gives 500.
- Timestamps are integers; `Date` parsing, locale formatting, JSX, CSS classes, `console.error` and the drag-over highlight are left out; `alert` and `window.location` appear only as effects of the download handler, and the alert text is not modelled.
- `Decimal.ParseInt`: models an optional sign and a run of decimal digits only; leading whitespace, hexadecimal prefixes and numbers beyond exact integer range are not modelled.
- React state batching and asynchronous scheduling are treated as sequential updates; the browse page's `fetchListings` loading and error flags are presentation state and left out.
- The first dashboard query's own `order by created_at desc` is not modelled: the page sorts the merged list again, so it only decides the order of entries with equal timestamps, and the model keeps the order the database returned.
- The second dashboard query's `(null)` placeholder filter, used when the first query returns nothing or fails, is not interpreted: which ids the database takes it to exclude is the input `nullExcluded` of `Dashboard.DashboardPage` (the user filter still applies), so `Dashboard.BoardListsUserUploads` and `Dashboard.TotalCountsUserUploads` hold only when the first query returns at least one row, that is, when some upload of the user has a bpm tag. A failed query reads as an empty result.
- The first bpm tag is the first in the order the database embeds tags; that order is unspecified and is an input.
- `Dashboard.SortNewestFirst`: does not state stability (entries with equal timestamps keep their input order), though the model sorts stably as `Array.prototype.sort` does.
- `Uploader.HandleUpload`: states the record-by-record result only when no file appears twice; with a repeated `File` object the record list follows the source's aliasing but is only bounded in length.
- `Uploader.UploadFile`: the progress record is mutated in place and pushed to the list when the run starts; the model records the finished value at that position, which is what the list holds once the run returns.

=== FILE: browse.dfy ===
/** The browse page's client logic: the BPM filter inputs, the search query
    they produce, the public preview URL of a listing, and what a download
    click does with the server's answer. */
module Browse {
  import opened Common
  import opened Decimal

  const DefaultMinBpm := 0
  const DefaultMaxBpm := 300
  const PreviewPathPrefix := "/storage/v1/object/public/previews/"

  /** `parseInt(value) || 0`: the parsed number, with NaN and 0 both giving 0. */
  function MinBpmInput(value: string): (r: int)
    ensures ParseInt(value).Int? ==> r == ParseInt(value).n
    ensures ParseInt(value).NaN? ==> r == DefaultMinBpm
  {
    var parsed := ParseInt(value);
    if Truthy(parsed) then parsed.n else DefaultMinBpm
  }

  /** `parseInt(value) || 300`: the parsed number, with NaN and 0 both giving 300. */
  function MaxBpmInput(value: string): (r: int)
    ensures Truthy(ParseInt(value)) ==> r == ParseInt(value).n
    ensures !Truthy(ParseInt(value)) ==> r == DefaultMaxBpm
    ensures r != 0
  {
    var parsed := ParseInt(value);
    if Truthy(parsed) then parsed.n else DefaultMaxBpm
  }

  /** Typing a number into either box keeps it, except that 0 in the max box becomes 300. */
  lemma BpmInputsKeepTypedNumbers(n: int)
    ensures MinBpmInput(IntToString(n)) == n
    ensures MaxBpmInput(IntToString(n)) == (if n == 0 then DefaultMaxBpm else n)
  {
    ParseIntToString(n);
  }

  lemma EmptyInputsGiveDefaults()
    ensures MinBpmInput("") == DefaultMinBpm
    ensures MaxBpmInput("") == DefaultMaxBpm
    ensures MaxBpmInput("0") == DefaultMaxBpm
  {
    ParseDigits("0");
  }

  /** The search query string `URLSearchParams({bpmMin, bpmMax}).toString()`:
      each parameter carries exactly `toString()` of its bound. */
  function SearchQuery(bpmMin: int, bpmMax: int): (q: string)
    ensures "bpmMin=" <= q
    ensures ReadSearchParams(q) == Some((IntToString(bpmMin), IntToString(bpmMax)))
  {
    var q := "bpmMin=" + IntToString(bpmMin) + "&bpmMax=" + IntToString(bpmMax);
    RenderingHasNoAmpersand(bpmMin);
    ReadSplitQuery(IntToString(bpmMin), IntToString(bpmMax));
    q
  }

  /** The index of the first `&` in `s`, if any. */
  function FirstAmpersand(s: string): (r: Option<nat>)
    ensures r.Some? ==> r.value < |s| && s[r.value] == '&'
    ensures r.Some? ==> forall j :: 0 <= j < r.value ==> s[j] != '&'
    ensures r.None? ==> forall j :: 0 <= j < |s| ==> s[j] != '&'
  {
    if |s| == 0 then None
    else if s[0] == '&' then Some(0)
    else
      match FirstAmpersand(s[1..])
      case None => None
      case Some(i) => Some(i + 1)
  }

  /** A reference reader for the query string: it finds both raw values by
      their keys, as `URLSearchParams.get` does for a query of this shape. It
      states what the string carries; the search endpoint itself does not read
      these parameters. */
  function ReadSearchParams(q: string): Option<(string, string)>
  {
    var minKey := "bpmMin=";
    var maxKey := "&bpmMax=";
    if !(minKey <= q) then None
    else
      var rest := q[|minKey|..];
      match FirstAmpersand(rest)
      case None => None
      case Some(i) =>
        var tail := rest[i..];
        if !(maxKey <= tail) then None
        else Some((rest[..i], tail[|maxKey|..]))
  }

  /** Both values read back with `parseInt`. */
  function ReadSearchQuery(q: string): Option<(JsNum, JsNum)>
  {
    match ReadSearchParams(q)
    case None => None
    case Some((a, c)) => Some((ParseInt(a), ParseInt(c)))
  }

  lemma {:induction false} FirstAmpersandAfter(a: string, b: string)
    requires forall j :: 0 <= j < |a| ==> a[j] != '&'
    requires |b| > 0 && b[0] == '&'
    ensures FirstAmpersand(a + b) == Some(|a|)
  {
    if |a| > 0 {
      assert (a + b)[1..] == a[1..] + b;
      FirstAmpersandAfter(a[1..], b);
    }
  }

  /** A rendered integer holds no `&`. */
  lemma RenderingHasNoAmpersand(n: int)
    ensures forall j :: 0 <= j < |IntToString(n)| ==> IntToString(n)[j] != '&'
  {
    var a := IntToString(n);
    if n < 0 {
      var digits := NatToString(-n);
      assert a == "-" + digits;
      forall j | 1 <= j < |a| ensures a[j] != '&' {
        assert a[j] == digits[j - 1];
      }
    }
  }

  /** A query whose minimum holds no `&` splits back into its two values. */
  lemma ReadSplitQuery(a: string, c: string)
    requires forall j :: 0 <= j < |a| ==> a[j] != '&'
    ensures ReadSearchParams("bpmMin=" + a + "&bpmMax=" + c) == Some((a, c))
  {
    var b := "&bpmMax=" + c;
    var rest := ("bpmMin=" + a + "&bpmMax=" + c)[|"bpmMin="|..];
    assert rest == a + b;
    FirstAmpersandAfter(a, b);
    assert rest[..|a|] == a;
    assert rest[|a|..] == b;
    assert b[|"&bpmMax="|..] == c;
  }

  /** The query string determines both bounds: different filters send
      different queries. */
  lemma SearchQueryInjective(min1: int, max1: int, min2: int, max2: int)
    requires SearchQuery(min1, max1) == SearchQuery(min2, max2)
    ensures min1 == min2 && max1 == max2
  {
    IntToStringInjective(min1, min2);
    IntToStringInjective(max1, max2);
  }

  /** Both bounds travel as decimal strings and come back unchanged; nothing
      checks min <= max on the way. */
  lemma SearchQueryRoundTrip(bpmMin: int, bpmMax: int)
    ensures ReadSearchQuery(SearchQuery(bpmMin, bpmMax)) == Some((Int(bpmMin), Int(bpmMax)))
  {
    ParseIntToString(bpmMin);
    ParseIntToString(bpmMax);
  }

  /** `getPreviewUrl`: null for a missing or empty path, otherwise the public
      URL of the object in the "previews" bucket under `base`. */
  function PreviewUrl(base: string, previewPath: Option<string>): (r: Option<string>)
    ensures r.None? <==> FalsyText(previewPath)
    ensures r.Some? ==> base + PreviewPathPrefix <= r.value
    ensures r.Some? ==> r.value[|base + PreviewPathPrefix|..] == previewPath.value
  {
    if FalsyText(previewPath) then None
    else Some(base + PreviewPathPrefix + previewPath.value)
  }

  /** Distinct previews get distinct URLs. */
  lemma PreviewUrlInjective(base: string, p1: string, p2: string)
    requires PreviewUrl(base, Some(p1)) == PreviewUrl(base, Some(p2))
    requires p1 != "" && p2 != ""
    ensures p1 == p2
  {
    var r := PreviewUrl(base, Some(p1)).value;
    assert r[|base + PreviewPathPrefix|..] == p1;
  }

  // ---- Download ----

  /** The decoded body of the download endpoint's answer. */
  datatype DownloadBody = DownloadBody(
    url: Option<string>, error: Option<string>,
    creditsNeeded: Option<int>, creditsAvailable: Option<int>)

  /** How the POST ends: an exception before a decoded body (`Some(message)`
      for an `Error`), or a response status with its decoded body. */
  datatype DownloadReply =
    | Threw(message: Option<string>)
    | Responded(status: int, body: DownloadBody)

  /** What the click leads to. */
  datatype DownloadOutcome =
    | InsufficientCredits(needed: Option<int>, available: Option<int>)
    | Failed(message: string)
    | Redirect(url: string)

  /** `response.ok`: a 2xx status. */
  predicate IsOk(status: int)
  {
    200 <= status <= 299
  }

  /** `handleDownload`'s classification of the answer. */
  function ClassifyDownload(reply: DownloadReply): (o: DownloadOutcome)
    ensures o.InsufficientCredits? <==> reply.Responded? && reply.status == 402
    ensures o.InsufficientCredits? ==>
              o.needed == reply.body.creditsNeeded && o.available == reply.body.creditsAvailable
    ensures o.Redirect? <==> reply.Responded? && IsOk(reply.status) && !FalsyText(reply.body.url)
    ensures o.Redirect? ==> o.url == reply.body.url.value
    ensures reply.Responded? && !IsOk(reply.status) && reply.status != 402 ==>
              o == Failed(if FalsyText(reply.body.error) then "Failed to initiate download" else reply.body.error.value)
    ensures reply.Responded? && IsOk(reply.status) && FalsyText(reply.body.url) ==>
              o == Failed("No download URL received")
    ensures reply.Threw? ==> o == Failed(if reply.message.Some? then reply.message.value else "Unknown error")
  {
    match reply
    case Threw(m) => Failed(if m.Some? then m.value else "Unknown error")
    case Responded(status, body) =>
      if !IsOk(status) then
        if status == 402 then InsufficientCredits(body.creditsNeeded, body.creditsAvailable)
        else Failed(if FalsyText(body.error) then "Failed to initiate download" else body.error.value)
      else if !FalsyText(body.url) then Redirect(body.url.value)
      else Failed("No download URL received")
  }

  /** What a click on "Download" does, in order: writes to the `downloading`
      marker, the POST to the download endpoint, alerts and navigation. */
  datatype DownloadEffect =
    | MarkDownloading(marker: Option<string>)
    | PostDownload(listing: string)
    | AlertInsufficient(needed: Option<int>, available: Option<int>)
    | AlertFailure(message: string)
    | Navigate(url: string)

  /** How the `try` block of `handleDownload` is left: normally (the `return`
      after the 402 alert, or the end of the block after navigating), or by an
      exception with its message (`None` for a thrown non-`Error`). */
  datatype TryExit = Finished | Raised(message: Option<string>)

  /** The `try` block after the POST: its effects and how it is left. */
  function DownloadTry(reply: DownloadReply): (r: (seq<DownloadEffect>, TryExit))
    ensures |r.0| <= 1
    ensures r.1.Finished? <==> |r.0| == 1
    ensures r.1.Finished? ==> r.0[0].AlertInsufficient? || r.0[0].Navigate?
  {
    match reply
    case Threw(m) => ([], Raised(m))
    case Responded(status, body) =>
      if !IsOk(status) then
        if status == 402 then ([AlertInsufficient(body.creditsNeeded, body.creditsAvailable)], Finished)
        else ([], Raised(Some(if FalsyText(body.error) then "Failed to initiate download" else body.error.value)))
      else if !FalsyText(body.url) then ([Navigate(body.url.value)], Finished)
      else ([], Raised(Some("No download URL received")))
  }

  /** The `catch` block: an alert with the exception's message, or nothing. */
  function DownloadCatch(exit: TryExit): (e: seq<DownloadEffect>)
    ensures exit.Finished? <==> |e| == 0
    ensures exit.Raised? ==> |e| == 1 && e[0].AlertFailure?
  {
    match exit
    case Finished => []
    case Raised(m) => [AlertFailure(if m.Some? then m.value else "Unknown error")]
  }

  /** `handleDownload`: mark the listing, POST, run the `try` block, the
      `catch` block if it threw, and the `finally` block's clearing write. */
  function HandleDownload(listingId: string, reply: DownloadReply): (e: seq<DownloadEffect>)
    ensures |e| == 4
    ensures e[0] == MarkDownloading(Some(listingId)) && e[1] == PostDownload(listingId)
    ensures e[|e| - 1] == MarkDownloading(None)
    ensures forall i :: 0 < i < |e| - 1 ==> !e[i].MarkDownloading?
  {
    var (effects, exit) := DownloadTry(reply);
    [MarkDownloading(Some(listingId)), PostDownload(listingId)] + effects + DownloadCatch(exit)
      + [MarkDownloading(None)]
  }

  /** What the user sees for each classified outcome. */
  function Reaction(o: DownloadOutcome): DownloadEffect
  {
    match o
    case InsufficientCredits(needed, available) => AlertInsufficient(needed, available)
    case Failed(message) => AlertFailure(message)
    case Redirect(url) => Navigate(url)
  }

  /** The handler's one visible reaction between the POST and the clearing
      write is the one its classification of the answer calls for. */
  lemma DownloadFollowsClassification(listingId: string, reply: DownloadReply)
    ensures HandleDownload(listingId, reply)[2] == Reaction(ClassifyDownload(reply))
  {
  }

  /** The page is left only after an ok answer with a URL, to that URL. */
  lemma NavigatesOnlyOnSuccess(listingId: string, reply: DownloadReply, url: string)
    requires Navigate(url) in HandleDownload(listingId, reply)
    ensures reply.Responded? && IsOk(reply.status) && reply.body.url == Some(url)
  {
    DownloadFollowsClassification(listingId, reply);
    var e := HandleDownload(listingId, reply);
    assert e[2] == Navigate(url);
  }

  /** Only a successful answer with a URL leaves the page. */
  lemma RedirectOnlyOnSuccess(reply: DownloadReply)
    ensures ClassifyDownload(reply).Redirect? ==> reply.Responded? && IsOk(reply.status)
    ensures reply.Responded? && reply.status == 402 ==> !ClassifyDownload(reply).Redirect?
  {
  }
}

=== FILE: common.dfy ===
/** Small shared vocabulary: optional values and the JavaScript notion of a
    "falsy" string field in a decoded JSON body. */
module Common {

  /** A value that may be absent (`undefined` or `null` on the JavaScript side). */
  datatype Option<+T> = None | Some(value: T)

  /** `!x` for an optional string: absent, null and the empty string are falsy. */
  function FalsyText(x: Option<string>): (r: bool)
    ensures r <==> x == None || x == Some("")
  {
    x.None? || x.value == ""
  }

  /** The character `/` does not occur in `s`. */
  predicate NoSlash(s: string)
  {
    forall i :: 0 <= i < |s| ==> s[i] != '/'
  }
}

=== FILE: dashboard.dfy ===
/** The signed-in creator's dashboard: two queries over the `uploads` table
    (uploads with a "bpm" tag, and the rest), merged, sorted newest first,
    counted, and rendered with a BPM column and a status badge. Timestamps
    are integers. */
module Dashboard {
  import opened Common
  import opened Decimal

  const BpmTagName := "bpm"
  const Published := "published"
  const Processing := "processing"

  datatype Tag = Tag(name: string, value: Option<string>)

  /** A row of `uploads` with the tags that belong to it. */
  datatype UploadRecord = UploadRecord(
    id: string, userId: string, title: string, status: string, createdAt: int, tags: seq<Tag>)

  /** A row of the first query: an upload with its embedded "bpm" tags only. */
  datatype TaggedRow = TaggedRow(id: string, title: string, status: string, createdAt: int, bpmTags: seq<Tag>)

  /** A row of the second query: the upload's columns without tags. */
  datatype PlainRow = PlainRow(id: string, title: string, status: string, createdAt: int)

  /** One line of the dashboard table; `bpm` is null (`None`), NaN or an integer. */
  datatype Entry = Entry(id: string, title: string, status: string, createdAt: int, bpm: Option<JsNum>)

  /** What the page renders: a sign-in prompt, or the table and the two counters. */
  datatype Page =
    | SignInPrompt
    | Board(entries: seq<Entry>, total: nat, published: nat)

  datatype Badge = Green | Yellow | Gray

  predicate IsBpmTag(t: Tag)
  {
    t.name == BpmTagName
  }

  /** Tag i is the first "bpm" tag of `tags`. */
  predicate FirstBpmTagAt(tags: seq<Tag>, i: int)
  {
    0 <= i < |tags| && IsBpmTag(tags[i]) && forall j :: 0 <= j < i ==> !IsBpmTag(tags[j])
  }

  /** The "bpm" tags of an upload, in the order they are embedded. */
  function BpmTags(tags: seq<Tag>): (r: seq<Tag>)
    ensures forall t :: t in r <==> t in tags && IsBpmTag(t)
    ensures |r| <= |tags|
    ensures forall i :: FirstBpmTagAt(tags, i) ==> |r| > 0 && r[0] == tags[i]
  {
    if |tags| == 0 then []
    else if IsBpmTag(tags[0]) then [tags[0]] + BpmTags(tags[1..])
    else
      var r := BpmTags(tags[1..]);
      assert forall i :: FirstBpmTagAt(tags, i) ==> i > 0 && FirstBpmTagAt(tags[1..], i - 1);
      r
  }

  /** Selecting the "bpm" tags distributes over concatenation, so they keep
      their relative order. */
  lemma {:induction false} BpmTagsAppend(a: seq<Tag>, b: seq<Tag>)
    ensures BpmTags(a + b) == BpmTags(a) + BpmTags(b)
  {
    if |a| > 0 {
      assert (a + b)[1..] == a[1..] + b;
      BpmTagsAppend(a[1..], b);
    } else {
      assert a + b == b;
    }
  }

  predicate HasBpmTag(u: UploadRecord)
  {
    exists i :: 0 <= i < |u.tags| && IsBpmTag(u.tags[i])
  }

  /** Upload ids are unique, as the primary key of `uploads` makes them. */
  predicate DistinctUploadIds(db: seq<UploadRecord>)
  {
    forall i, j :: 0 <= i < j < |db| ==> db[i].id != db[j].id
  }

  /** No two rows of a first-query answer are for the same upload. */
  predicate DistinctTaggedRows(rows: seq<TaggedRow>)
  {
    forall i, j :: 0 <= i < j < |rows| ==> rows[i].id != rows[j].id
  }

  /** No two rows of a second-query answer are for the same upload. */
  predicate DistinctPlainRows(rows: seq<PlainRow>)
  {
    forall i, j :: 0 <= i < j < |rows| ==> rows[i].id != rows[j].id
  }

  /** `db` holds an upload of `userId` with id `id`. */
  predicate OwnsUpload(db: seq<UploadRecord>, userId: string, id: string)
  {
    exists u :: u in db && u.userId == userId && u.id == id
  }

  /** The row the first query returns for upload `u`. */
  function TaggedRowOf(u: UploadRecord): TaggedRow
  {
    TaggedRow(u.id, u.title, u.status, u.createdAt, BpmTags(u.tags))
  }

  /** The row the second query returns for upload `u`. */
  function PlainRowOf(u: UploadRecord): PlainRow
  {
    PlainRow(u.id, u.title, u.status, u.createdAt)
  }

  /** `row` is what the first query returns for some upload of `userId` that has a "bpm" tag. */
  predicate TaggedRowFrom(db: seq<UploadRecord>, userId: string, row: TaggedRow)
  {
    exists u :: u in db && u.userId == userId && HasBpmTag(u) && row == TaggedRowOf(u)
  }

  /** `row` is what the second query returns for some upload of `userId`. */
  predicate PlainRowFrom(db: seq<UploadRecord>, userId: string, row: PlainRow)
  {
    exists u :: u in db && u.userId == userId && row == PlainRowOf(u)
  }

  /** The first query: the user's uploads joined (inner) with their "bpm" tags. */
  function TaggedQuery(db: seq<UploadRecord>, userId: string): (r: seq<TaggedRow>)
    ensures forall row :: row in r ==> |row.bpmTags| > 0 && OwnsUpload(db, userId, row.id)
    ensures forall row :: row in r ==> TaggedRowFrom(db, userId, row)
    ensures forall u :: u in db && u.userId == userId && HasBpmTag(u) ==> TaggedRowOf(u) in r
    ensures forall u :: u in db && u.userId == userId && HasBpmTag(u) ==> u.id in Ids(r)
  {
    if |db| == 0 then []
    else
      var u := db[0];
      var rest := TaggedQuery(db[1..], userId);
      if u.userId == userId && HasBpmTag(u) then
        var tags := BpmTags(u.tags);
        assert tags[0] in tags by {
          var i :| 0 <= i < |u.tags| && IsBpmTag(u.tags[i]);
          assert u.tags[i] in tags;
        }
        [TaggedRowOf(u)] + rest
      else rest
  }

  /** With unique upload ids, the first query returns each upload at most once. */
  lemma {:induction false} TaggedQueryOncePerUpload(db: seq<UploadRecord>, userId: string)
    requires DistinctUploadIds(db)
    ensures DistinctTaggedRows(TaggedQuery(db, userId))
  {
    if |db| > 0 {
      LaterIdsDiffer(db);
      TaggedQueryOncePerUpload(db[1..], userId);
      var rest := TaggedQuery(db[1..], userId);
      var u := db[0];
      if u.userId == userId && HasBpmTag(u) {
        assert TaggedQuery(db, userId) == [TaggedRowOf(u)] + rest;
        forall k | 0 <= k < |rest| ensures rest[k].id != u.id {
          assert rest[k] in rest;
          assert OwnsUpload(db[1..], userId, rest[k].id);
        }
        TaggedConsDistinct(TaggedRowOf(u), rest);
      } else {
        assert TaggedQuery(db, userId) == rest;
      }
    }
  }

  lemma TaggedConsDistinct(row: TaggedRow, rest: seq<TaggedRow>)
    requires DistinctTaggedRows(rest)
    requires forall k :: 0 <= k < |rest| ==> rest[k].id != row.id
    ensures DistinctTaggedRows([row] + rest)
  {
    var all := [row] + rest;
    forall i, j | 0 <= i < j < |all| ensures all[i].id != all[j].id {
      assert all[j] == rest[j - 1];
      if i > 0 {
        assert all[i] == rest[i - 1];
      }
    }
  }

  /** With unique upload ids, the second query returns each upload at most once. */
  lemma {:induction false} UntaggedQueryOncePerUpload(db: seq<UploadRecord>, userId: string, excluded: set<string>)
    requires DistinctUploadIds(db)
    ensures DistinctPlainRows(UntaggedQuery(db, userId, excluded))
  {
    if |db| > 0 {
      LaterIdsDiffer(db);
      UntaggedQueryOncePerUpload(db[1..], userId, excluded);
      var rest := UntaggedQuery(db[1..], userId, excluded);
      var u := db[0];
      if u.userId == userId && u.id !in excluded {
        assert UntaggedQuery(db, userId, excluded) == [PlainRowOf(u)] + rest;
        forall k | 0 <= k < |rest| ensures rest[k].id != u.id {
          assert rest[k] in rest;
          assert OwnsUpload(db[1..], userId, rest[k].id);
        }
        PlainConsDistinct(PlainRowOf(u), rest);
      } else {
        assert UntaggedQuery(db, userId, excluded) == rest;
      }
    }
  }

  lemma PlainConsDistinct(row: PlainRow, rest: seq<PlainRow>)
    requires DistinctPlainRows(rest)
    requires forall k :: 0 <= k < |rest| ==> rest[k].id != row.id
    ensures DistinctPlainRows([row] + rest)
  {
    var all := [row] + rest;
    forall i, j | 0 <= i < j < |all| ensures all[i].id != all[j].id {
      assert all[j] == rest[j - 1];
      if i > 0 {
        assert all[i] == rest[i - 1];
      }
    }
  }

  /** With unique ids, the rest of the table is unique too and holds no upload
      with the first upload's id. */
  lemma LaterIdsDiffer(db: seq<UploadRecord>)
    requires DistinctUploadIds(db) && |db| > 0
    ensures DistinctUploadIds(db[1..])
    ensures forall v :: v in db[1..] ==> v.id != db[0].id
  {
    forall v | v in db[1..] ensures v.id != db[0].id {
      var k :| 0 <= k < |db[1..]| && db[1..][k] == v;
      assert db[k + 1] == v;
    }
  }

  function Ids(rows: seq<TaggedRow>): set<string>
  {
    set row | row in rows :: row.id
  }

  function PlainIds(rows: seq<PlainRow>): set<string>
  {
    set row | row in rows :: row.id
  }

  /** The second query: the user's uploads whose id is not among `excluded`. */
  function UntaggedQuery(db: seq<UploadRecord>, userId: string, excluded: set<string>): (r: seq<PlainRow>)
    ensures forall row :: row in r ==> row.id !in excluded && OwnsUpload(db, userId, row.id)
    ensures forall row :: row in r ==> PlainRowFrom(db, userId, row)
    ensures forall u :: u in db && u.userId == userId && u.id !in excluded ==> PlainRowOf(u) in r
    ensures forall u :: u in db && u.userId == userId && u.id !in excluded ==> u.id in PlainIds(r)
  {
    if |db| == 0 then []
    else
      var u := db[0];
      var rest := UntaggedQuery(db[1..], userId, excluded);
      if u.userId == userId && u.id !in excluded then
        [PlainRowOf(u)] + rest
      else rest
  }

  /** The bpm shown for a tagged row: the integer parse of the first bpm tag's
      value, or null when that value is missing or empty. */
  function BpmOf(bpmTags: seq<Tag>): (r: Option<JsNum>)
    ensures r.None? <==> |bpmTags| == 0 || FalsyText(bpmTags[0].value)
    ensures r.Some? ==> r.value == ParseInt(bpmTags[0].value.value)
  {
    if |bpmTags| > 0 && !FalsyText(bpmTags[0].value) then Some(ParseInt(bpmTags[0].value.value))
    else None
  }

  function FromTagged(rows: seq<TaggedRow>): (r: seq<Entry>)
    ensures |r| == |rows|
    ensures forall i :: 0 <= i < |rows| ==>
              r[i] == Entry(rows[i].id, rows[i].title, rows[i].status, rows[i].createdAt, BpmOf(rows[i].bpmTags))
  {
    if |rows| == 0 then []
    else
      var row := rows[0];
      [Entry(row.id, row.title, row.status, row.createdAt, BpmOf(row.bpmTags))] + FromTagged(rows[1..])
  }

  function FromPlain(rows: seq<PlainRow>): (r: seq<Entry>)
    ensures |r| == |rows|
    ensures forall i :: 0 <= i < |rows| ==>
              r[i] == Entry(rows[i].id, rows[i].title, rows[i].status, rows[i].createdAt, None)
  {
    if |rows| == 0 then []
    else
      var row := rows[0];
      [Entry(row.id, row.title, row.status, row.createdAt, None)] + FromPlain(rows[1..])
  }

  /** Non-increasing creation time: the newest upload first. */
  predicate NewestFirst(s: seq<Entry>)
  {
    forall i, j :: 0 <= i < j < |s| ==> s[i].createdAt >= s[j].createdAt
  }

  /** Putting an entry at least as new as all of `t` in front keeps the order. */
  lemma PrependNewest(x: Entry, t: seq<Entry>)
    requires NewestFirst(t)
    requires forall i :: 0 <= i < |t| ==> t[i].createdAt <= x.createdAt
    ensures NewestFirst([x] + t)
  {
  }

  /** Inserts `e` into a newest-first list ahead of every entry not newer than it. */
  function InsertByDate(e: Entry, s: seq<Entry>): (r: seq<Entry>)
    requires NewestFirst(s)
    ensures NewestFirst(r)
    ensures multiset(r) == multiset(s) + multiset{e}
    ensures |r| == |s| + 1
  {
    if |s| == 0 then [e]
    else if s[0].createdAt <= e.createdAt then
      PrependNewest(e, s);
      [e] + s
    else
      var tail := InsertByDate(e, s[1..]);
      assert s == [s[0]] + s[1..];
      NoNewerThanHead(e, s, tail);
      PrependNewest(s[0], tail);
      [s[0]] + tail
  }

  /** What is inserted behind the head of a newest-first list is not newer than the head. */
  lemma NoNewerThanHead(e: Entry, s: seq<Entry>, tail: seq<Entry>)
    requires NewestFirst(s) && |s| > 0 && e.createdAt < s[0].createdAt
    requires multiset(tail) == multiset(s[1..]) + multiset{e}
    ensures forall i :: 0 <= i < |tail| ==> tail[i].createdAt <= s[0].createdAt
  {
    forall i | 0 <= i < |tail| ensures tail[i].createdAt <= s[0].createdAt {
      assert tail[i] in multiset(s[1..]) + multiset{e};
      if tail[i] != e {
        var k :| 0 <= k < |s[1..]| && s[1..][k] == tail[i];
        assert s[k + 1] == tail[i];
      }
    }
  }

  /** The stable newest-first sort the page applies (`Array.prototype.sort` with
      the comparator `b.created_at - a.created_at`). */
  function SortNewestFirst(s: seq<Entry>): (r: seq<Entry>)
    ensures NewestFirst(r)
    ensures multiset(r) == multiset(s)
    ensures |r| == |s|
  {
    if |s| == 0 then []
    else
      var rest := SortNewestFirst(s[1..]);
      var r := InsertByDate(s[0], rest);
      SameEntriesAfterInsert(s, rest, r);
      r
  }

  /** Inserting the head into a permutation of the tail gives a permutation of the whole. */
  lemma SameEntriesAfterInsert(s: seq<Entry>, rest: seq<Entry>, r: seq<Entry>)
    requires |s| > 0 && multiset(rest) == multiset(s[1..]) && |rest| == |s| - 1
    requires multiset(r) == multiset(rest) + multiset{s[0]} && |r| == |rest| + 1
    ensures multiset(r) == multiset(s) && |r| == |s|
  {
    assert s == [s[0]] + s[1..];
  }

  /** The statuses of the entries, position by position. */
  function Statuses(s: seq<Entry>): (r: seq<string>)
    ensures |r| == |s|
  {
    seq(|s|, i requires 0 <= i < |s| => s[i].status)
  }

  /** The "Published" counter: entries whose status is exactly "published". */
  function PublishedCount(s: seq<Entry>): (n: nat)
    ensures n <= |s|
  {
    if |s| == 0 then 0
    else (if s[0].status == Published then 1 else 0) + PublishedCount(s[1..])
  }

  /** The counter is the number of occurrences of "published" among the statuses. */
  lemma {:induction false} PublishedCountIsStatusCount(s: seq<Entry>)
    ensures PublishedCount(s) == multiset(Statuses(s))[Published]
  {
    if |s| > 0 {
      assert Statuses(s) == [s[0].status] + Statuses(s[1..]);
      PublishedCountIsStatusCount(s[1..]);
    }
  }

  /** What the page reads from the first query: its rows, or nothing when it failed. */
  function FirstAnswer(db: seq<UploadRecord>, userId: string, taggedOk: bool): (r: seq<TaggedRow>)
    ensures forall row :: row in r ==> TaggedRowFrom(db, userId, row)
    ensures taggedOk ==> r == TaggedQuery(db, userId)
    ensures !taggedOk ==> r == []
  {
    if taggedOk then TaggedQuery(db, userId) else []
  }

  /** What the page reads from the second query. Its filter lists the ids of the
      first answer; when that answer is empty the filter is the placeholder
      `(null)`, and which ids the database then takes it to exclude is the input
      `nullExcluded` (nothing, a literal "null" id, or every row). */
  function SecondAnswer(db: seq<UploadRecord>, userId: string, first: seq<TaggedRow>,
                        untaggedOk: bool, nullExcluded: set<string>): (r: seq<PlainRow>)
    ensures !untaggedOk ==> r == []
    ensures untaggedOk && |first| == 0 ==>
              forall u :: u in db && u.userId == userId ==> (PlainRowOf(u) in r <==> u.id !in nullExcluded)
    ensures untaggedOk && |first| > 0 ==>
              forall u :: u in db && u.userId == userId ==> (PlainRowOf(u) in r <==> u.id !in Ids(first))
    ensures forall row :: row in r ==> PlainRowFrom(db, userId, row)
  {
    if !untaggedOk then []
    else
      var excluded := if |first| == 0 then nullExcluded else Ids(first);
      var r := UntaggedQuery(db, userId, excluded);
      assert forall u :: u in db && u.userId == userId && PlainRowOf(u) in r ==> u.id !in excluded;
      r
  }

  /** The page. Without a signed-in user nothing is queried; otherwise the two
      queries run (either may fail, which reads as an empty result) and are merged. */
  function DashboardPage(user: Option<string>, db: seq<UploadRecord>, taggedOk: bool, untaggedOk: bool,
                         nullExcluded: set<string>): (p: Page)
    ensures FalsyText(user) <==> p.SignInPrompt?
    ensures p.Board? ==> p.total == |p.entries| && p.published == PublishedCount(p.entries)
    ensures p.Board? ==> NewestFirst(p.entries)
    ensures p.Board? ==>
              var first := FirstAnswer(db, user.value, taggedOk);
              var second := SecondAnswer(db, user.value, first, untaggedOk, nullExcluded);
              multiset(p.entries) == multiset(FromTagged(first) + FromPlain(second))
  {
    if FalsyText(user) then SignInPrompt
    else
      var tagged := FirstAnswer(db, user.value, taggedOk);
      var untagged := SecondAnswer(db, user.value, tagged, untaggedOk, nullExcluded);
      var entries := Merge(tagged, untagged);
      Board(entries, |entries|, PublishedCount(entries))
  }

  /** The combined list: both query results, converted and sorted newest first. */
  function Merge(tagged: seq<TaggedRow>, untagged: seq<PlainRow>): (r: seq<Entry>)
    ensures NewestFirst(r)
    ensures multiset(r) == multiset(FromTagged(tagged) + FromPlain(untagged))
    ensures |r| == |tagged| + |untagged|
  {
    SortNewestFirst(FromTagged(tagged) + FromPlain(untagged))
  }

  /** BPM column text: "n BPM" when bpm is truthy, otherwise "N/A". */
  function BpmText(bpm: Option<JsNum>): (r: string)
    ensures r == "N/A" <==> !(bpm.Some? && Truthy(bpm.value))
    ensures bpm.Some? && Truthy(bpm.value) ==>
              |r| > 4 && r[|r| - 4..] == " BPM" && r[..|r| - 4] == IntToString(bpm.value.n)
    ensures bpm.Some? && Truthy(bpm.value) ==> ParseInt(r[..|r| - 4]) == bpm.value
  {
    if bpm.Some? && Truthy(bpm.value) then
      var digits := IntToString(bpm.value.n);
      ParseIntToString(bpm.value.n);
      var r := digits + " BPM";
      assert r[..|r| - 4] == digits;
      r
    else "N/A"
  }

  /** Distinct bpms show distinct texts: the rendering loses nothing. */
  lemma DistinctBpmsShowDistinctTexts(a: JsNum, b: JsNum)
    requires Truthy(a) && Truthy(b) && a != b
    ensures BpmText(Some(a)) != BpmText(Some(b))
  {
  }

  /** Status badge colour: green for published, yellow for processing, gray otherwise. */
  function StatusBadge(status: string): (b: Badge)
    ensures b == Green <==> status == Published
    ensures b == Yellow <==> status == Processing
  {
    if status == Published then Green
    else if status == Processing then Yellow
    else Gray
  }

  // ---- Lemmas ----

  lemma {:induction false} PublishedCountInsert(e: Entry, s: seq<Entry>)
    requires NewestFirst(s)
    ensures PublishedCount(InsertByDate(e, s)) == PublishedCount(s) + (if e.status == Published then 1 else 0)
  {
    if |s| > 0 && s[0].createdAt > e.createdAt {
      PublishedCountInsert(e, s[1..]);
      assert InsertByDate(e, s)[1..] == InsertByDate(e, s[1..]);
    }
  }

  /** Sorting does not change the "Published" counter. */
  lemma {:induction false} PublishedCountSort(s: seq<Entry>)
    ensures PublishedCount(SortNewestFirst(s)) == PublishedCount(s)
  {
    if |s| > 0 {
      PublishedCountSort(s[1..]);
      PublishedCountInsert(s[0], SortNewestFirst(s[1..]));
    }
  }

  lemma {:induction false} PublishedCountAppend(a: seq<Entry>, b: seq<Entry>)
    ensures PublishedCount(a + b) == PublishedCount(a) + PublishedCount(b)
  {
    if |a| == 0 {
      assert a + b == b;
    } else {
      assert (a + b)[0] == a[0];
      assert (a + b)[1..] == a[1..] + b;
      PublishedCountAppend(a[1..], b);
    }
  }

  /** The "Published" counter is the sum of the published rows of the two queries. */
  lemma PublishedCountMerge(tagged: seq<TaggedRow>, untagged: seq<PlainRow>)
    ensures PublishedCount(Merge(tagged, untagged))
         == PublishedCount(FromTagged(tagged)) + PublishedCount(FromPlain(untagged))
  {
    PublishedCountSort(FromTagged(tagged) + FromPlain(untagged));
    PublishedCountAppend(FromTagged(tagged), FromPlain(untagged));
  }

  /** Without a signed-in user the page does not depend on the database at all. */
  lemma SignedOutIgnoresDatabase(user: Option<string>, db1: seq<UploadRecord>, db2: seq<UploadRecord>,
                                 a1: bool, b1: bool, a2: bool, b2: bool, n1: set<string>, n2: set<string>)
    requires FalsyText(user)
    ensures DashboardPage(user, db1, a1, b1, n1) == DashboardPage(user, db2, a2, b2, n2) == SignInPrompt
  {
  }

  function EntryIds(s: seq<Entry>): set<string>
  {
    set e | e in s :: e.id
  }

  /** The ids of the user's uploads in `db`. */
  function UserIds(db: seq<UploadRecord>, userId: string): set<string>
  {
    set u | u in db && u.userId == userId :: u.id
  }

  /** An entry is listed exactly when one of the two queries produced it. */
  lemma InMerge(tagged: seq<TaggedRow>, untagged: seq<PlainRow>, e: Entry)
    ensures e in Merge(tagged, untagged) <==> e in FromTagged(tagged) || e in FromPlain(untagged)
  {
    var all := FromTagged(tagged) + FromPlain(untagged);
    assert e in Merge(tagged, untagged) <==> e in multiset(all);
  }

  lemma TaggedIds(tagged: seq<TaggedRow>)
    ensures EntryIds(FromTagged(tagged)) == Ids(tagged)
  {
    var es := FromTagged(tagged);
    forall id | id in Ids(tagged) ensures id in EntryIds(es) {
      var i :| 0 <= i < |tagged| && tagged[i].id == id;
      assert es[i] in es;
    }
    forall id | id in EntryIds(es) ensures id in Ids(tagged) {
      var i :| 0 <= i < |es| && es[i].id == id;
      assert tagged[i] in tagged;
    }
  }

  lemma PlainIdsListed(untagged: seq<PlainRow>)
    ensures EntryIds(FromPlain(untagged)) == PlainIds(untagged)
    ensures forall e :: e in FromPlain(untagged) ==> e.bpm.None?
  {
    var es := FromPlain(untagged);
    forall id | id in PlainIds(untagged) ensures id in EntryIds(es) {
      var i :| 0 <= i < |untagged| && untagged[i].id == id;
      assert es[i] in es;
    }
    forall id | id in EntryIds(es) ensures id in PlainIds(untagged) {
      var i :| 0 <= i < |es| && es[i].id == id;
      assert untagged[i] in untagged;
    }
  }

  /** The listed ids are those of the first query and those of the second. */
  lemma MergeIds(tagged: seq<TaggedRow>, untagged: seq<PlainRow>)
    ensures EntryIds(Merge(tagged, untagged)) == Ids(tagged) + PlainIds(untagged)
  {
    TaggedIds(tagged);
    PlainIdsListed(untagged);
    forall e ensures e in Merge(tagged, untagged) <==> e in FromTagged(tagged) || e in FromPlain(untagged) {
      InMerge(tagged, untagged, e);
    }
  }

  /** Every entry that came from the second query has a null bpm. */
  lemma UntaggedEntriesHaveNoBpm(tagged: seq<TaggedRow>, untagged: seq<PlainRow>, e: Entry)
    requires e in Merge(tagged, untagged)
    requires e !in FromTagged(tagged)
    ensures e.bpm.None?
    ensures e in FromPlain(untagged)
  {
    InMerge(tagged, untagged, e);
    PlainIdsListed(untagged);
  }

  /** The two queries never return the same upload. */
  lemma QueriesDisjoint(db: seq<UploadRecord>, userId: string)
    ensures Ids(TaggedQuery(db, userId)) !! PlainIds(UntaggedQuery(db, userId, Ids(TaggedQuery(db, userId))))
  {
  }

  /** Between them, the first query and the second query that excludes its ids
      return exactly the ids of the user's uploads. */
  lemma QueriesCoverUser(userId: string, db: seq<UploadRecord>)
    ensures var tagged := TaggedQuery(db, userId);
            Ids(tagged) + PlainIds(UntaggedQuery(db, userId, Ids(tagged))) == UserIds(db, userId)
  {
    var tagged := TaggedQuery(db, userId);
    var untagged := UntaggedQuery(db, userId, Ids(tagged));
    forall id | id in Ids(tagged) ensures id in UserIds(db, userId) {
      var row :| row in tagged && row.id == id;
      var u :| u in db && u.userId == userId && u.id == id;
    }
    forall id | id in PlainIds(untagged) ensures id in UserIds(db, userId) {
      var row :| row in untagged && row.id == id;
      var u :| u in db && u.userId == userId && u.id == id;
    }
    forall id | id in UserIds(db, userId) ensures id in Ids(tagged) + PlainIds(untagged) {
      var u :| u in db && u.userId == userId && u.id == id;
    }
  }

  /** With both queries answering and the first returning at least one row, the
      dashboard lists exactly the user's uploads. */
  lemma BoardListsUserUploads(userId: string, db: seq<UploadRecord>, nullExcluded: set<string>)
    requires userId != ""
    requires exists u :: u in db && u.userId == userId && HasBpmTag(u)
    ensures EntryIds(DashboardPage(Some(userId), db, true, true, nullExcluded).entries) == UserIds(db, userId)
  {
    var w :| w in db && w.userId == userId && HasBpmTag(w);
    assert TaggedRowOf(w) in TaggedQuery(db, userId);
    var tagged := TaggedQuery(db, userId);
    var untagged := UntaggedQuery(db, userId, Ids(tagged));
    assert !FalsyText(Some(userId));
    assert DashboardPage(Some(userId), db, true, true, nullExcluded).entries == Merge(tagged, untagged);
    MergeIds(tagged, untagged);
    QueriesCoverUser(userId, db);
  }

  /** When the first query fails, every entry shows bpm null. */
  lemma TaggedFailureShowsNoBpm(userId: string, db: seq<UploadRecord>, untaggedOk: bool,
                                nullExcluded: set<string>, e: Entry)
    requires userId != ""
    requires e in DashboardPage(Some(userId), db, false, untaggedOk, nullExcluded).entries
    ensures e.bpm.None?
  {
    var untagged := SecondAnswer(db, userId, [], untaggedOk, nullExcluded);
    assert e in Merge([], untagged);
    UntaggedEntriesHaveNoBpm([], untagged, e);
  }

  /** The entry the page builds for an upload that carries "bpm" tags. */
  function TaggedEntryOf(u: UploadRecord): Entry
  {
    Entry(u.id, u.title, u.status, u.createdAt, BpmOf(BpmTags(u.tags)))
  }

  /** The bpm shown for a tagged upload is read from its first "bpm" tag in
      table order: the tag's value parsed, or null when that value is empty. */
  lemma ShownBpmIsFirstTag(u: UploadRecord, i: int)
    requires FirstBpmTagAt(u.tags, i)
    ensures TaggedEntryOf(u).bpm ==
              if FalsyText(u.tags[i].value) then None else Some(ParseInt(u.tags[i].value.value))
  {
    assert BpmTags(u.tags)[0] == u.tags[i];
  }

  /** Every entry that shows a bpm is an upload of the user that has a "bpm" tag,
      shown with its own columns and the value of its first "bpm" tag. */
  lemma ShownBpmIsOwnTag(userId: string, db: seq<UploadRecord>, taggedOk: bool, untaggedOk: bool,
                         nullExcluded: set<string>, e: Entry)
    requires userId != ""
    requires e in DashboardPage(Some(userId), db, taggedOk, untaggedOk, nullExcluded).entries
    requires e.bpm.Some?
    ensures exists u :: u in db && u.userId == userId && HasBpmTag(u) && e == TaggedEntryOf(u)
  {
    var tagged := FirstAnswer(db, userId, taggedOk);
    var untagged := SecondAnswer(db, userId, tagged, untaggedOk, nullExcluded);
    assert e in Merge(tagged, untagged);
    PlainIdsListed(untagged);
    InMerge(tagged, untagged, e);
    var i :| 0 <= i < |tagged| && FromTagged(tagged)[i] == e;
    assert tagged[i] in tagged;
    var u :| u in db && u.userId == userId && HasBpmTag(u) && tagged[i] == TaggedRowOf(u);
    assert e == TaggedEntryOf(u);
  }

  /** Rows with pairwise distinct ids carry as many ids as there are rows. */
  lemma {:induction false} TaggedRowsCount(rows: seq<TaggedRow>)
    requires DistinctTaggedRows(rows)
    ensures |Ids(rows)| == |rows|
  {
    if |rows| > 0 {
      var rest := rows[1..];
      forall k | 0 <= k < |rest| ensures rest[k].id != rows[0].id {
        assert rest[k] == rows[k + 1];
      }
      assert DistinctTaggedRows(rest) by {
        forall i, j | 0 <= i < j < |rest| ensures rest[i].id != rest[j].id {
          assert rest[i] == rows[i + 1] && rest[j] == rows[j + 1];
        }
      }
      TaggedRowsCount(rest);
      assert rows == [rows[0]] + rest;
      assert Ids(rows) == {rows[0].id} + Ids(rest);
    }
  }

  lemma {:induction false} PlainRowsCount(rows: seq<PlainRow>)
    requires DistinctPlainRows(rows)
    ensures |PlainIds(rows)| == |rows|
  {
    if |rows| > 0 {
      var rest := rows[1..];
      forall k | 0 <= k < |rest| ensures rest[k].id != rows[0].id {
        assert rest[k] == rows[k + 1];
      }
      assert DistinctPlainRows(rest) by {
        forall i, j | 0 <= i < j < |rest| ensures rest[i].id != rest[j].id {
          assert rest[i] == rows[i + 1] && rest[j] == rows[j + 1];
        }
      }
      PlainRowsCount(rest);
      assert rows == [rows[0]] + rest;
      assert PlainIds(rows) == {rows[0].id} + PlainIds(rest);
    }
  }

  /** With unique upload ids, the first query and the second query that excludes
      its ids return, between them, one row per upload of the user. */
  lemma QueriesCountUser(userId: string, db: seq<UploadRecord>)
    requires DistinctUploadIds(db)
    ensures var tagged := TaggedQuery(db, userId);
            |tagged| + |UntaggedQuery(db, userId, Ids(tagged))| == |UserIds(db, userId)|
  {
    var tagged := TaggedQuery(db, userId);
    var untagged := UntaggedQuery(db, userId, Ids(tagged));
    TaggedQueryOncePerUpload(db, userId);
    UntaggedQueryOncePerUpload(db, userId, Ids(tagged));
    TaggedRowsCount(tagged);
    PlainRowsCount(untagged);
    QueriesDisjoint(db, userId);
    QueriesCoverUser(userId, db);
    DisjointUnionCount(Ids(tagged), PlainIds(untagged));
  }

  lemma DisjointUnionCount(a: set<string>, b: set<string>)
    requires a !! b
    ensures |a + b| == |a| + |b|
  {
    assert a * b == {};
  }

  /** With unique upload ids, both queries answering and the first returning at
      least one row, the page's total is the number of the user's uploads: each
      one is counted, and counted once. */
  lemma TotalCountsUserUploads(userId: string, db: seq<UploadRecord>, nullExcluded: set<string>)
    requires userId != ""
    requires DistinctUploadIds(db)
    requires exists u :: u in db && u.userId == userId && HasBpmTag(u)
    ensures DashboardPage(Some(userId), db, true, true, nullExcluded).total == |UserIds(db, userId)|
  {
    var w :| w in db && w.userId == userId && HasBpmTag(w);
    assert TaggedRowOf(w) in TaggedQuery(db, userId);
    var tagged := TaggedQuery(db, userId);
    var untagged := UntaggedQuery(db, userId, Ids(tagged));
    assert !FalsyText(Some(userId));
    assert SecondAnswer(db, userId, tagged, true, nullExcluded) == untagged;
    assert DashboardPage(Some(userId), db, true, true, nullExcluded).total == |Merge(tagged, untagged)|;
    QueriesCountUser(userId, db);
  }

  /** The entry the page builds for a row of the second query: no bpm. */
  function PlainEntryOf(u: UploadRecord): Entry
  {
    Entry(u.id, u.title, u.status, u.createdAt, None)
  }

  /** Whatever the two queries' outcomes, every listed entry is an upload of the
      signed-in user, shown either with its first "bpm" tag or with bpm null. */
  lemma ListedEntriesAreUserUploads(userId: string, db: seq<UploadRecord>, taggedOk: bool, untaggedOk: bool,
                                    nullExcluded: set<string>, e: Entry)
    requires userId != ""
    requires e in DashboardPage(Some(userId), db, taggedOk, untaggedOk, nullExcluded).entries
    ensures exists u :: u in db && u.userId == userId &&
                        ((HasBpmTag(u) && e == TaggedEntryOf(u)) || e == PlainEntryOf(u))
  {
    var tagged := FirstAnswer(db, userId, taggedOk);
    var untagged := SecondAnswer(db, userId, tagged, untaggedOk, nullExcluded);
    assert e in Merge(tagged, untagged);
    InMerge(tagged, untagged, e);
    if e in FromTagged(tagged) {
      TaggedEntryFromUpload(db, userId, tagged, e);
    } else {
      PlainEntryFromUpload(db, userId, untagged, e);
    }
  }

  lemma TaggedEntryFromUpload(db: seq<UploadRecord>, userId: string, tagged: seq<TaggedRow>, e: Entry)
    requires forall row :: row in tagged ==> TaggedRowFrom(db, userId, row)
    requires e in FromTagged(tagged)
    ensures exists u :: u in db && u.userId == userId && HasBpmTag(u) && e == TaggedEntryOf(u)
  {
    var i :| 0 <= i < |tagged| && FromTagged(tagged)[i] == e;
    assert tagged[i] in tagged;
    var u :| u in db && u.userId == userId && HasBpmTag(u) && tagged[i] == TaggedRowOf(u);
    assert e == TaggedEntryOf(u);
  }

  lemma PlainEntryFromUpload(db: seq<UploadRecord>, userId: string, untagged: seq<PlainRow>, e: Entry)
    requires forall row :: row in untagged ==> PlainRowFrom(db, userId, row)
    requires e in FromPlain(untagged)
    ensures exists u :: u in db && u.userId == userId && e == PlainEntryOf(u)
  {
    var i :| 0 <= i < |untagged| && FromPlain(untagged)[i] == e;
    assert untagged[i] in untagged;
    var u :| u in db && u.userId == userId && untagged[i] == PlainRowOf(u);
    assert e == PlainEntryOf(u);
  }
}

=== FILE: decimal.dfy ===
/** The two number conversions the client and dashboard rely on: JavaScript's
    `parseInt(s)` (base 10) and `Number.prototype.toString()` on integers. */
module Decimal {

  /** A number as `parseInt` can produce it: NaN or an integer. */
  datatype JsNum = NaN | Int(n: int)

  /** JavaScript truthiness of a number: NaN and 0 are falsy. */
  function Truthy(x: JsNum): (r: bool)
    ensures r <==> x != NaN && x != Int(0)
  {
    x.Int? && x.n != 0
  }

  predicate IsDigit(c: char)
  {
    '0' <= c <= '9'
  }

  predicate AllDigits(s: string)
  {
    forall i :: 0 <= i < |s| ==> IsDigit(s[i])
  }

  function DigitValue(c: char): (d: nat)
    requires IsDigit(c)
    ensures d < 10
  {
    (c as int) - ('0' as int)
  }

  function DigitChar(d: nat): (c: char)
    requires d < 10
    ensures IsDigit(c) && DigitValue(c) == d
  {
    (('0' as int) + d) as char
  }

  /** The value of a string of decimal digits, most significant digit first. */
  function DigitsValue(s: string): nat
    requires AllDigits(s)
  {
    if |s| == 0 then 0 else DigitsValue(s[..|s| - 1]) * 10 + DigitValue(s[|s| - 1])
  }

  /** `n.toString()` for a non-negative integer: its shortest decimal digit string. */
  function NatToString(n: nat): (s: string)
    ensures |s| > 0 && AllDigits(s)
    ensures |s| > 1 ==> s[0] != '0'
  {
    if n < 10 then [DigitChar(n)] else NatToString(n / 10) + [DigitChar(n % 10)]
  }

  /** `i.toString()` for any integer: a minus sign before the magnitude when negative. */
  function IntToString(i: int): (s: string)
    ensures |s| > 0
    ensures i < 0 <==> s[0] == '-'
    ensures i >= 0 ==> AllDigits(s)
  {
    if i < 0 then "-" + NatToString(-i) else NatToString(i)
  }

  /** The length of the longest prefix of `s` made of decimal digits. */
  function DigitPrefixLength(s: string): (k: nat)
    ensures k <= |s|
    ensures AllDigits(s[..k])
    ensures k < |s| ==> !IsDigit(s[k])
  {
    if |s| == 0 || !IsDigit(s[0]) then 0
    else
      var k' := DigitPrefixLength(s[1..]);
      assert s[..k' + 1] == [s[0]] + s[1..][..k'];
      k' + 1
  }

  /** `s` with one leading `+` or `-` removed. */
  function Unsigned(s: string): string
  {
    if |s| > 0 && (s[0] == '-' || s[0] == '+') then s[1..] else s
  }

  /** `parseInt(s)` in base 10 on the strings a number input produces: an optional
      sign, then the longest run of decimal digits; anything after the run is
      ignored, and no digit at all gives NaN. */
  function ParseInt(s: string): (r: JsNum)
    ensures r.NaN? <==> DigitPrefixLength(Unsigned(s)) == 0
    ensures |s| == 0 ==> r == NaN
    ensures r.Int? && r.n < 0 ==> s[0] == '-'
  {
    var body := Unsigned(s);
    var k := DigitPrefixLength(body);
    var magnitude: int := DigitsValue(body[..k]);
    if k == 0 then NaN
    else if s[0] == '-' then Int(-magnitude)
    else Int(magnitude)
  }

  /** A string made only of digits is its own longest digit prefix. */
  lemma {:induction false} AllDigitsPrefix(s: string)
    requires AllDigits(s)
    ensures DigitPrefixLength(s) == |s|
  {
    if |s| > 0 {
      AllDigitsPrefix(s[1..]);
    }
  }

  /** Reading back the digits `toString` writes gives the number. */
  lemma {:induction false} NatToStringValue(n: nat)
    ensures DigitsValue(NatToString(n)) == n
  {
    var s := NatToString(n);
    if n >= 10 {
      NatToStringValue(n / 10);
      assert s[..|s| - 1] == NatToString(n / 10);
    }
  }

  /** A plain digit string parses to its value. */
  lemma ParseDigits(s: string)
    requires |s| > 0 && AllDigits(s)
    ensures ParseInt(s) == Int(DigitsValue(s))
  {
    AllDigitsPrefix(s);
    assert s[..|s|] == s;
  }

  /** `parseInt(i.toString()) == i` for every integer. */
  lemma ParseIntToString(i: int)
    ensures ParseInt(IntToString(i)) == Int(i)
  {
    var s := IntToString(i);
    if i < 0 {
      var m := NatToString(-i);
      assert Unsigned(s) == m;
      AllDigitsPrefix(m);
      NatToStringValue(-i);
      assert m[..|m|] == m;
    } else {
      ParseDigits(s);
      NatToStringValue(i);
    }
  }

  /** Rendering is injective: distinct integers render differently. */
  lemma IntToStringInjective(i: int, j: int)
    requires IntToString(i) == IntToString(j)
    ensures i == j
  {
    ParseIntToString(i);
    ParseIntToString(j);
  }
}

=== FILE: upload_init.dfy ===
/** The upload-initiation endpoint: authenticate the caller, validate the body,
    reserve an `uploads` row in status "uploading", ask storage for a one-time
    write URL for the original, and record the `assets` row that points at it.
    The database and the storage bucket are an abstract `Store`; the caller's
    identity, the generated ids, the clock and the success of each external
    call are inputs. */
module UploadInit {
  import opened Common

  const Uploading := "uploading"
  const DefaultCountry := "GB"
  const OriginalsBucket := "originals"
  const OriginalsPrefix := "originals/"

  datatype UploadRow = UploadRow(
    id: string, userId: string, title: string, country: string,
    status: string, createdAt: int, updatedAt: int)

  datatype AssetRow = AssetRow(
    id: string, uploadId: string, pathOriginal: string, createdAt: int, updatedAt: int)

  /** A request for a signed upload URL; `upsert == false` forbids overwriting. */
  datatype SignRequest = SignRequest(bucket: string, path: string, upsert: bool)

  /** The `uploads` and `assets` tables, keyed by primary key, and the log of
      signed-URL requests sent to storage. */
  datatype Store = Store(
    uploads: map<string, UploadRow>,
    assets: map<string, AssetRow>,
    signRequests: seq<SignRequest>)

  /** The decoded JSON body; a field is `None` when absent or null. */
  datatype InitBody = InitBody(title: Option<string>, filename: Option<string>)

  /** What the services outside the handler answer: the two generated ids,
      the four clock readings (each timestamp is its own `new Date()`),
      whether each insert succeeds, and the signed URL (`None` when storage
      reports an error). */
  datatype Oracle = Oracle(
    uploadId: string, assetId: string,
    uploadCreatedAt: int, uploadUpdatedAt: int, assetCreatedAt: int, assetUpdatedAt: int,
    uploadInsertOk: bool, signedUrl: Option<string>, assetInsertOk: bool)

  /** The decoded body carries a title and a filename, both non-empty. */
  predicate ValidBody(body: Option<InitBody>)
  {
    body.Some? && !FalsyText(body.value.title) && !FalsyText(body.value.filename)
  }

  datatype ResponseBody =
    | ErrorBody(error: string)
    | Initiated(uploadId: string, url: string, path: string)

  datatype Response = Response(status: int, body: ResponseBody)

  /** The response together with the store as the handler leaves it. */
  datatype Outcome = Outcome(response: Response, store: Store)

  /** The object path of an original: originals/{user}/{upload}/{filename}. */
  function OriginalPath(userId: string, uploadId: string, filename: string): (p: string)
    ensures OriginalsPrefix <= p
    ensures |p| == |OriginalsPrefix| + |userId| + |uploadId| + |filename| + 2
  {
    OriginalsPrefix + userId + "/" + uploadId + "/" + filename
  }

  /** The index of the first `/` in `s`, if any. */
  function FirstSlash(s: string): (r: Option<nat>)
    ensures r.Some? ==> r.value < |s| && s[r.value] == '/' && NoSlash(s[..r.value])
    ensures r.None? ==> NoSlash(s)
  {
    if |s| == 0 then None
    else if s[0] == '/' then Some(0)
    else
      match FirstSlash(s[1..])
      case None => None
      case Some(i) =>
        assert s[..i + 1] == [s[0]] + s[1..][..i];
        Some(i + 1)
  }

  datatype PathParts = PathParts(userId: string, uploadId: string, filename: string)

  /** Splits an originals path back into its three components. */
  function ParseOriginalPath(p: string): Option<PathParts>
  {
    if !(OriginalsPrefix <= p) then None
    else
      var rest := p[|OriginalsPrefix|..];
      match FirstSlash(rest)
      case None => None
      case Some(i) =>
        var tail := rest[i + 1..];
        match FirstSlash(tail)
        case None => None
        case Some(j) => Some(PathParts(rest[..i], tail[..j], tail[j + 1..]))
  }

  lemma {:induction false} FirstSlashAfter(a: string, b: string)
    requires NoSlash(a)
    ensures FirstSlash(a + "/" + b) == Some(|a|)
  {
    if |a| > 0 {
      assert (a + "/" + b)[1..] == a[1..] + "/" + b;
      FirstSlashAfter(a[1..], b);
    }
  }

  /** The path determines the user, the upload and the filename, provided the
      two ids contain no slash (the filename may). */
  lemma OriginalPathRoundTrip(userId: string, uploadId: string, filename: string)
    requires NoSlash(userId) && NoSlash(uploadId)
    ensures ParseOriginalPath(OriginalPath(userId, uploadId, filename))
         == Some(PathParts(userId, uploadId, filename))
  {
    var p := OriginalPath(userId, uploadId, filename);
    var rest := p[|OriginalsPrefix|..];
    assert rest == userId + "/" + (uploadId + "/" + filename);
    FirstSlashAfter(userId, uploadId + "/" + filename);
    assert rest[..|userId|] == userId;
    var tail := rest[|userId| + 1..];
    assert tail == uploadId + "/" + filename;
    FirstSlashAfter(uploadId, filename);
    assert tail[..|uploadId|] == uploadId;
    assert tail[|uploadId| + 1..] == filename;
  }

  /** Two uploads never share an original path. */
  lemma OriginalPathsDistinct(userId: string, id1: string, id2: string, f1: string, f2: string)
    requires NoSlash(userId) && NoSlash(id1) && NoSlash(id2) && id1 != id2
    ensures OriginalPath(userId, id1, f1) != OriginalPath(userId, id2, f2)
  {
    OriginalPathRoundTrip(userId, id1, f1);
    OriginalPathRoundTrip(userId, id2, f2);
  }

  function Fail(status: int, message: string, store: Store): Outcome
  {
    Outcome(Response(status, ErrorBody(message)), store)
  }

  /** The POST handler. Each failing step returns at once; rows written by
      earlier steps stay in place. */
  function Initiate(user: Option<string>, body: Option<InitBody>, store: Store, o: Oracle): (out: Outcome)
    // no identity: 401 and nothing written or requested
    ensures FalsyText(user) <==> out.response.status == 401
    ensures out.response.status == 401 ==> out.store == store
    // a missing or empty field: 400 before any write
    ensures out.response.status == 400 <==>
              !FalsyText(user) && body.Some? && (FalsyText(body.value.title) || FalsyText(body.value.filename))
    ensures out.response.status == 400 ==> out.store == store
    ensures out.response.status in {200, 400, 401, 500}
    ensures out.response.status == 200 <==> out.response.body.Initiated?
    // success exactly when every step succeeds
    ensures out.response.status == 200 <==>
              && !FalsyText(user) && body.Some?
              && !FalsyText(body.value.title) && !FalsyText(body.value.filename)
              && o.uploadInsertOk && o.uploadId !in store.uploads
              && o.signedUrl.Some?
              && o.assetInsertOk && o.assetId !in store.assets
    // rows are only added, never overwritten, and only under the generated ids
    ensures forall k :: k in store.uploads ==> k in out.store.uploads && out.store.uploads[k] == store.uploads[k]
    ensures forall k :: k in store.assets ==> k in out.store.assets && out.store.assets[k] == store.assets[k]
    ensures out.store.uploads - {o.uploadId} == store.uploads - {o.uploadId}
    ensures out.store.assets - {o.assetId} == store.assets - {o.assetId}
    ensures store.signRequests <= out.store.signRequests
    ensures |out.store.signRequests| <= |store.signRequests| + 1
    // a failing step stops the handler: nothing is written before the upload
    // row, the URL is requested only after it, and the asset row only after that
    ensures (FalsyText(user) || !ValidBody(body) || !o.uploadInsertOk || o.uploadId in store.uploads)
              ==> out.store == store
    ensures out.store.uploads != store.uploads ==>
              && !FalsyText(user) && ValidBody(body)
              && out.store.uploads == store.uploads[o.uploadId :=
                   UploadRow(o.uploadId, user.value, body.value.title.value, DefaultCountry, Uploading,
                             o.uploadCreatedAt, o.uploadUpdatedAt)]
    ensures out.store.signRequests != store.signRequests ==>
              && !FalsyText(user) && ValidBody(body) && out.store.uploads != store.uploads
              && out.store.signRequests == store.signRequests
                   + [SignRequest(OriginalsBucket, OriginalPath(user.value, o.uploadId, body.value.filename.value), false)]
    ensures out.response.status != 200 ==> out.store.assets == store.assets
    // success: the reply, the upload row, the request and the asset row agree
    ensures out.response.status == 200 ==>
      var path := OriginalPath(user.value, o.uploadId, body.value.filename.value);
      && out.response.body == Initiated(o.uploadId, o.signedUrl.value, path)
      && o.uploadId in out.store.uploads && o.uploadId !in store.uploads
      && out.store.uploads[o.uploadId]
           == UploadRow(o.uploadId, user.value, body.value.title.value, DefaultCountry, Uploading,
                        o.uploadCreatedAt, o.uploadUpdatedAt)
      && out.store.signRequests == store.signRequests + [SignRequest(OriginalsBucket, path, false)]
      && o.assetId in out.store.assets && o.assetId !in store.assets
      && out.store.assets[o.assetId].uploadId == o.uploadId
      && out.store.assets[o.assetId].pathOriginal == out.response.body.path
      && out.store.assets[o.assetId] == AssetRow(o.assetId, o.uploadId, path, o.assetCreatedAt, o.assetUpdatedAt)
  {
    if FalsyText(user) then Fail(401, "Unauthorized", store)
    else if body.None? then Fail(500, "Upload initialization failed", store)
    else if FalsyText(body.value.title) || FalsyText(body.value.filename) then
      Fail(400, "Title and filename are required", store)
    else
      var userId := user.value;
      var title := body.value.title.value;
      var filename := body.value.filename.value;
      var path := OriginalPath(userId, o.uploadId, filename);
      if !o.uploadInsertOk || o.uploadId in store.uploads then
        Fail(500, "Failed to create upload record", store)
      else
        var row := UploadRow(o.uploadId, userId, title, DefaultCountry, Uploading, o.uploadCreatedAt, o.uploadUpdatedAt);
        var s1 := store.(uploads := store.uploads[o.uploadId := row]);
        var s2 := s1.(signRequests := s1.signRequests + [SignRequest(OriginalsBucket, path, false)]);
        if o.signedUrl.None? then
          Fail(500, "Failed to create upload URL", s2)
        else if !o.assetInsertOk || o.assetId in s2.assets then
          Fail(500, "Failed to create asset record", s2)
        else
          var asset := AssetRow(o.assetId, o.uploadId, path, o.assetCreatedAt, o.assetUpdatedAt);
          var s3 := s2.(assets := s2.assets[o.assetId := asset]);
          Outcome(Response(200, Initiated(o.uploadId, o.signedUrl.value, path)), s3)
  }

  /** Every asset row points at an existing upload row. */
  predicate AssetsLinked(s: Store)
  {
    forall a :: a in s.assets ==> s.assets[a].uploadId in s.uploads
  }

  /** No asset row refers to upload `id`. */
  predicate NoAssetFor(s: Store, id: string)
  {
    forall a :: a in s.assets ==> s.assets[a].uploadId != id
  }

  /** Initiation keeps every asset linked to an upload, whatever fails. */
  lemma InitiatePreservesLinks(user: Option<string>, body: Option<InitBody>, store: Store, o: Oracle)
    requires AssetsLinked(store)
    ensures AssetsLinked(Initiate(user, body, store, o).store)
  {
    var out := Initiate(user, body, store, o);
    forall a | a in out.store.assets
      ensures out.store.assets[a].uploadId in out.store.uploads
    {
      if a in store.assets {
        assert store.assets[a].uploadId in store.uploads;
      }
    }
  }

  /** A failure after the upload row is written is not rolled back: the caller
      gets 500 and an "uploading" row remains that no asset refers to. */
  lemma LateFailureLeavesOrphan(user: Option<string>, body: Option<InitBody>, store: Store, o: Oracle)
    requires AssetsLinked(store)
    requires !FalsyText(user) && body.Some?
    requires !FalsyText(body.value.title) && !FalsyText(body.value.filename)
    requires o.uploadInsertOk && o.uploadId !in store.uploads
    requires o.signedUrl.None? || !o.assetInsertOk
    ensures Initiate(user, body, store, o).response.status == 500
    ensures o.uploadId in Initiate(user, body, store, o).store.uploads
    ensures Initiate(user, body, store, o).store.uploads[o.uploadId].status == Uploading
    ensures NoAssetFor(Initiate(user, body, store, o).store, o.uploadId)
  {
    var out := Initiate(user, body, store, o);
    assert out.store.assets == store.assets;
    forall a | a in store.assets
      ensures store.assets[a].uploadId != o.uploadId
    {
      assert store.assets[a].uploadId in store.uploads;
    }
  }

  /** A successful initiation for a fresh upload id makes the new asset the only
      one pointing at the new upload, at the derived path. */
  lemma SuccessLinksExactlyOneAsset(user: Option<string>, body: Option<InitBody>, store: Store, o: Oracle)
    requires AssetsLinked(store)
    requires Initiate(user, body, store, o).response.status == 200
    ensures var out := Initiate(user, body, store, o);
      forall a :: a in out.store.assets && out.store.assets[a].uploadId == o.uploadId ==>
        a == o.assetId && out.store.assets[a].pathOriginal == out.response.body.path
  {
    var out := Initiate(user, body, store, o);
    forall a | a in out.store.assets && a != o.assetId
      ensures out.store.assets[a].uploadId != o.uploadId
    {
      assert out.store.assets[a] == store.assets[a];
    }
  }
}

=== FILE: upload_toggle.dfy ===
/** The dashboard's publish/unpublish button for one upload: the next-status
    rule, the in-flight guard, the disabled state and the label. The PATCH
    request's outcome is an input. */
module UploadToggle {
  import opened Common

  const Published := "published"
  const Pending := "pending"
  const Processing := "processing"

  /** The button's local state: the status it shows and whether a request is in flight. */
  datatype ToggleState = ToggleState(status: string, loading: bool)

  /** How the PATCH request ends: a response with `ok` set, one without, or an exception. */
  datatype Reply = Ok | NotOk | Threw

  /** The PATCH sent to /api/uploads/{id} with the requested status. */
  datatype PatchRequest = PatchRequest(uploadId: string, status: string)

  /** A click's effect: the state afterwards and the request sent, if any. */
  datatype Click = Click(after: ToggleState, request: Option<PatchRequest>)

  /** The status a click asks for: "published" becomes "pending", anything else
      (including "uploading" and "processing") becomes "published". */
  function NextStatus(status: string): (r: string)
    ensures r == Published || r == Pending
    ensures r == Pending <==> status == Published
  {
    if status == Published then Pending else Published
  }

  /** Toggling twice returns to the start exactly on the two publishable statuses. */
  lemma NextStatusInvolution(status: string)
    ensures NextStatus(NextStatus(status)) == status <==> (status == Published || status == Pending)
  {
  }

  /** The button is disabled while the upload is processing or a request is in flight. */
  function Disabled(st: ToggleState): (r: bool)
    ensures st.status == Processing ==> r
    ensures st.loading ==> r
    ensures r && st.status != Processing ==> st.loading
  {
    st.status == Processing || st.loading
  }

  /** The button text. */
  function Label(st: ToggleState): (r: string)
    ensures r == "Published" <==> st.status == Published
    ensures r == "Published" || r == "Pending"
  {
    if st.status == Published then "Published" else "Pending"
  }

  /** The click handler: ignored while loading; otherwise it sends the next
      status and adopts it only if the response is ok. Loading is cleared on
      every path. */
  function HandleToggle(uploadId: string, st: ToggleState, reply: Reply): (c: Click)
    ensures st.loading ==> c == Click(st, None)
    ensures !st.loading ==> c.request == Some(PatchRequest(uploadId, NextStatus(st.status)))
    ensures !st.loading ==> !c.after.loading
    ensures c.after.status != st.status ==> reply == Ok && c.request.Some? && c.after.status == c.request.value.status
    ensures reply != Ok ==> c.after.status == st.status
    ensures !st.loading && reply == Ok ==> c.after.status == NextStatus(st.status)
  {
    if st.loading then Click(st, None)
    else
      var next := NextStatus(st.status);
      var shown := if reply == Ok then next else st.status;
      Click(ToggleState(shown, false), Some(PatchRequest(uploadId, next)))
  }

  /** A click on the rendered button: a disabled button does not fire the handler. */
  function ButtonClick(uploadId: string, st: ToggleState, reply: Reply): (c: Click)
    ensures Disabled(st) ==> c == Click(st, None)
    ensures !Disabled(st) ==> c == HandleToggle(uploadId, st, reply)
  {
    if Disabled(st) then Click(st, None) else HandleToggle(uploadId, st, reply)
  }

  /** Clicking the button never moves an upload out of "processing". */
  lemma ProcessingIsStuck(uploadId: string, st: ToggleState, reply: Reply)
    requires st.status == Processing
    ensures ButtonClick(uploadId, st, reply).after == st
    ensures ButtonClick(uploadId, st, reply).request.None?
  {
  }

  /** An idle button shows a publishable status after any successful click. */
  lemma SuccessfulClickShowsRequestedStatus(uploadId: string, st: ToggleState)
    requires !Disabled(st)
    ensures ButtonClick(uploadId, st, Ok).after.status == NextStatus(st.status)
    ensures (Label(ButtonClick(uploadId, st, Ok).after) == "Published") <==> st.status != Published
  {
  }

  /** Two successful clicks on a published or pending upload restore both its
      status and its label, and send the two statuses in turn. */
  lemma ToggleTwiceRestores(uploadId: string, st: ToggleState)
    requires !st.loading && (st.status == Published || st.status == Pending)
    ensures var c1 := ButtonClick(uploadId, st, Ok);
      var c2 := ButtonClick(uploadId, c1.after, Ok);
      && c2.after == st
      && c1.request == Some(PatchRequest(uploadId, NextStatus(st.status)))
      && c2.request == Some(PatchRequest(uploadId, st.status))
  {
    NextStatusInvolution(st.status);
  }
}

=== FILE: uploader.dfy ===
/** The client-side uploader: picking audio files, removing one, deriving a
    title from the file name, running one file through init -> PUT -> finalize
    with a progress record, and uploading the picked files one after another.
    Every network reply is an input. */
module Uploader {
  import opened Common

  const AudioPrefix := "audio/"

  /** A browser `File`; `handle` stands for the object's identity. */
  datatype File = File(handle: nat, name: string, mimeType: string)

  function IsAudio(f: File): (r: bool)
    ensures r <==> |f.mimeType| >= 6 && f.mimeType[..6] == "audio/"
  {
    AudioPrefix <= f.mimeType
  }

  // ---- Selection ----

  /** The picked files whose MIME type starts with "audio/", in order. */
  function AudioOnly(fs: seq<File>): (r: seq<File>)
    ensures forall f :: f in r <==> f in fs && IsAudio(f)
    ensures |r| <= |fs|
  {
    if |fs| == 0 then []
    else if IsAudio(fs[0]) then [fs[0]] + AudioOnly(fs[1..])
    else AudioOnly(fs[1..])
  }

  /** Filtering distributes over concatenation, so picked files keep their order. */
  lemma {:induction false} AudioOnlyAppend(a: seq<File>, b: seq<File>)
    ensures AudioOnly(a + b) == AudioOnly(a) + AudioOnly(b)
  {
    if |a| == 0 {
      assert a + b == b;
    } else {
      assert (a + b)[0] == a[0];
      assert (a + b)[1..] == a[1..] + b;
      AudioOnlyAppend(a[1..], b);
    }
  }

  /** A list of audio files passes the filter unchanged. */
  lemma {:induction false} AudioOnlyKeepsAudio(fs: seq<File>)
    requires forall i :: 0 <= i < |fs| ==> IsAudio(fs[i])
    ensures AudioOnly(fs) == fs
  {
    if |fs| > 0 {
      AudioOnlyKeepsAudio(fs[1..]);
    }
  }

  /** Dropping or selecting files: the audio ones are appended after the current list. */
  function AddFiles(current: seq<File>, picked: seq<File>): (r: seq<File>)
    ensures current <= r
    ensures forall f :: f in r[|current|..] <==> f in picked && IsAudio(f)
    ensures r[|current|..] == AudioOnly(picked)
  {
    current + AudioOnly(picked)
  }

  /** Adding twice is adding the two picks at once. */
  lemma AddFilesTwice(current: seq<File>, p1: seq<File>, p2: seq<File>)
    ensures AddFiles(AddFiles(current, p1), p2) == AddFiles(current, p1 + p2)
  {
    AudioOnlyAppend(p1, p2);
    assert (current + AudioOnly(p1)) + AudioOnly(p2) == current + (AudioOnly(p1) + AudioOnly(p2));
  }

  /** `files.filter((_, i) => i !== index)`. */
  function RemoveFile(fs: seq<File>, index: int): (r: seq<File>)
    ensures 0 <= index < |fs| ==> r == fs[..index] + fs[index + 1..]
    ensures !(0 <= index < |fs|) ==> r == fs
  {
    if |fs| == 0 then []
    else if index == 0 then fs[1..]
    else
      var rest := RemoveFile(fs[1..], index - 1);
      assert 0 < index < |fs| ==> fs[1..][..index - 1] == fs[1..index];
      [fs[0]] + rest
  }

  /** Removing keeps every other file, in order, and only that one goes. */
  lemma RemoveFileShifts(fs: seq<File>, index: int)
    requires 0 <= index < |fs|
    ensures |RemoveFile(fs, index)| == |fs| - 1
    ensures forall j :: 0 <= j < index ==> RemoveFile(fs, index)[j] == fs[j]
    ensures forall j :: index <= j < |fs| - 1 ==> RemoveFile(fs, index)[j] == fs[j + 1]
  {
    var r := RemoveFile(fs, index);
    assert r == fs[..index] + fs[index + 1..];
  }

  // ---- Title from file name ----

  /** A run the pattern `[^/.]+` matches: non-empty, without '/' or '.'. */
  predicate IsExtension(e: string)
  {
    |e| > 0 && forall i :: 0 <= i < |e| ==> e[i] != '/' && e[i] != '.'
  }

  /** The pattern `\.[^/.]+$` matches `name` starting at index `k`. */
  predicate ExtensionAt(name: string, k: int)
  {
    0 <= k < |name| && name[k] == '.' && IsExtension(name[k + 1..])
  }

  /** The pattern matches somewhere in `name`. */
  predicate HasExtension(name: string)
  {
    exists k :: 0 <= k < |name| && ExtensionAt(name, k)
  }

  /** The last '.' in `name[..i]` that no '/' follows within `name[..i]`. */
  function LastDot(name: string, i: nat): (r: Option<nat>)
    requires i <= |name|
    ensures r.Some? ==> r.value < i && name[r.value] == '.'
    ensures r.Some? ==> forall j :: r.value < j < i ==> name[j] != '/' && name[j] != '.'
    ensures r.None? ==> forall k :: 0 <= k < i && name[k] == '.' ==>
              exists j :: k < j < i && name[j] == '/'
  {
    if i == 0 then None
    else if name[i - 1] == '/' then None
    else if name[i - 1] == '.' then Some(i - 1)
    else LastDot(name, i - 1)
  }

  /** `name.replace(/\.[^/.]+$/, '')`: drop a trailing extension, if any. */
  function TitleFromFilename(name: string): (t: string)
    ensures t <= name
    ensures t != name ==> ExtensionAt(name, |t|)
    ensures t == name <==> !HasExtension(name)
  {
    match LastDot(name, |name|)
    case None => name
    case Some(k) =>
      if k + 1 < |name| then
        assert ExtensionAt(name, k);
        name[..k]
      else
        name
  }

  /** The pattern matches at most one position, so the removed part is determined. */
  lemma ExtensionUnique(name: string, k1: int, k2: int)
    requires ExtensionAt(name, k1) && ExtensionAt(name, k2)
    ensures k1 == k2
  {
  }

  /** A title with an extension is the name minus ".ext". */
  lemma TitleSplitsName(name: string)
    requires TitleFromFilename(name) != name
    ensures var t := TitleFromFilename(name);
      name == t + "." + name[|t| + 1..] && IsExtension(name[|t| + 1..])
  {
  }

  lemma TitleExamples()
    ensures TitleFromFilename("beat.mp3") == "beat"
    ensures TitleFromFilename(".mp3") == ""
    ensures TitleFromFilename("a.b.mp3") == "a.b"
    ensures TitleFromFilename("a.b") == "a"
    ensures TitleFromFilename("track.") == "track."
    ensures TitleFromFilename("dir.v2/track") == "dir.v2/track"
  {
    assert ExtensionAt("beat.mp3", 4);
    assert ExtensionAt(".mp3", 0);
    assert ExtensionAt("a.b.mp3", 3);
    assert ExtensionAt("a.b", 1);
    assert !HasExtension("track.");
    assert "dir.v2/track"[6] == '/';
    assert !HasExtension("dir.v2/track");
  }

  /** Deriving a title is not idempotent: applying it again can strip more. */
  lemma TitleNotIdempotent()
    ensures TitleFromFilename(TitleFromFilename("a.b.mp3")) != TitleFromFilename("a.b.mp3")
  {
    TitleExamples();
  }

  // ---- One file: init -> PUT -> finalize ----

  /** The status field of an upload's progress record. */
  datatype Stage = Pending | Uploading | Processing | Completed | Errored

  datatype UploadProgress = UploadProgress(
    file: File, status: Stage, progress: nat, message: string, uploadId: Option<string>)

  /** How a request ends: a response with `ok` and its decoded body, a
      response without `ok`, or an exception (`Some(message)` for an `Error`,
      `None` for any other thrown value). */
  datatype Reply<T> = Ok(body: T) | NotOk | Threw(message: Option<string>)

  /** The init endpoint's body, and the finalize endpoint's bpm and duration
      as they print in a template string. */
  datatype InitAnswer = InitAnswer(uploadId: string, url: string)
  datatype FinalizeAnswer = FinalizeAnswer(bpm: string, duration: string)

  /** The replies one file's three requests receive, in order. */
  datatype Replies = Replies(init: Reply<InitAnswer>, put: Reply<()>, finalize: Reply<FinalizeAnswer>)

  datatype Request =
    | InitRequest(title: string, filename: string)
    | PutRequest(url: string, file: File, contentType: string)
    | FinalizeRequest(uploadId: string)

  /** One file's run: the record it ends with, the requests it sent, and the
      successive states of its progress record. */
  datatype FileRun = FileRun(result: UploadProgress, requests: seq<Request>, trace: seq<UploadProgress>)

  const PreparingMessage := "Preparing upload..."
  const InitializingMessage := "Initializing upload..."
  const UploadingMessage := "Uploading file..."
  const ProcessingMessage := "Processing file..."
  const InitFailedMessage := "Failed to initialize upload"
  const PutFailedMessage := "Failed to upload file"
  const FinalizeFailedMessage := "Failed to process file"
  const UnknownFailureMessage := "Upload failed"

  /** The message of a completed run, from the finalize answer's bpm and duration. */
  function CompletedMessage(answer: FinalizeAnswer): (r: string)
    ensures |r| == 35 + |answer.bpm| + |answer.duration|
    ensures r[..22] == "Upload complete! BPM: " && r[22..22 + |answer.bpm|] == answer.bpm
    ensures r[22 + |answer.bpm|..34 + |answer.bpm|] == ", Duration: "
    ensures r[34 + |answer.bpm|..|r| - 1] == answer.duration && r[|r| - 1] == 's'
  {
    "Upload complete! BPM: " + answer.bpm + ", Duration: " + answer.duration + "s"
  }

  /** The message an exception leaves: the error's message, or "Upload failed". */
  function ThrownMessage(m: Option<string>): (r: string)
    ensures m.Some? ==> r == m.value
    ensures m.None? ==> r == "Upload failed"
  {
    if m.Some? then m.value else UnknownFailureMessage
  }

  /** The message a failed step leaves: its own text for a non-ok response. */
  function FailureMessage<T>(reply: Reply<T>, stepMessage: string): (r: string)
    requires !reply.Ok?
    ensures reply.NotOk? ==> r == stepMessage
    ensures reply.Threw? && reply.message.Some? ==> r == reply.message.value
    ensures reply == Threw(None) ==> r == "Upload failed"
  {
    if reply.NotOk? then stepMessage else ThrownMessage(reply.message)
  }

  /** The order the statuses of one record run through. */
  function StageRank(s: Stage): nat
  {
    match s
    case Pending => 0
    case Uploading => 1
    case Processing => 2
    case Completed => 3
    case Errored => 3
  }

  /** A progress record only moves forward: no update lowers the status rank
      or the percentage. */
  predicate Forward(trace: seq<UploadProgress>)
  {
    forall i :: 0 < i < |trace| ==>
      StageRank(trace[i - 1].status) <= StageRank(trace[i].status) && trace[i - 1].progress <= trace[i].progress
  }

  /** `uploadFile`: each request is sent only after the previous one answered ok;
      the first failure ends the run with status error. */
  function UploadFile(f: File, rs: Replies): (run: FileRun)
    ensures run.result.file == f
    ensures run.result.status == Completed || run.result.status == Errored
    ensures run.result.status == Completed <==> rs.init.Ok? && rs.put.Ok? && rs.finalize.Ok?
    ensures run.result.status == Completed ==> run.result.progress == 100
    ensures run.result.progress == 50 <==> rs.init.Ok? && rs.put.Ok? && !rs.finalize.Ok?
    ensures rs.init.Ok? ==> run.result.uploadId == Some(rs.init.body.uploadId)
    ensures !rs.init.Ok? ==> run.result.uploadId == None
    ensures !(rs.init.Ok? && rs.put.Ok?) ==> run.result.progress == 0
  {
    var p0 := UploadProgress(f, Pending, 0, PreparingMessage, None);
    var p1 := p0.(status := Uploading, message := InitializingMessage);
    var init := InitRequest(TitleFromFilename(f.name), f.name);
    if !rs.init.Ok? then
      var p := p1.(status := Errored, message := FailureMessage(rs.init, InitFailedMessage));
      FileRun(p, [init], [p0, p1, p])
    else
      var p2 := p1.(uploadId := Some(rs.init.body.uploadId), message := UploadingMessage);
      var put := PutRequest(rs.init.body.url, f, f.mimeType);
      if !rs.put.Ok? then
        var p := p2.(status := Errored, message := FailureMessage(rs.put, PutFailedMessage));
        FileRun(p, [init, put], [p0, p1, p2, p])
      else
        var p3 := p2.(progress := 50, message := ProcessingMessage);
        var fin := FinalizeRequest(rs.init.body.uploadId);
        if !rs.finalize.Ok? then
          var p := p3.(status := Errored, message := FailureMessage(rs.finalize, FinalizeFailedMessage));
          FileRun(p, [init, put, fin], [p0, p1, p2, p3, p])
        else
          var answer := rs.finalize.body;
          var p := p3.(status := Completed, progress := 100,
                       message := CompletedMessage(answer));
          FileRun(p, [init, put, fin], [p0, p1, p2, p3, p])
  }

  /** A failed run's message names the step that failed, unless an exception
      supplied its own message; a completed run reports the finalize answer. */
  lemma RunReportsOutcome(f: File, rs: Replies)
    ensures !rs.init.Ok? ==> UploadFile(f, rs).result.message == FailureMessage(rs.init, InitFailedMessage)
    ensures rs.init.Ok? && !rs.put.Ok? ==>
              UploadFile(f, rs).result.message == FailureMessage(rs.put, PutFailedMessage)
    ensures rs.init.Ok? && rs.put.Ok? && !rs.finalize.Ok? ==>
              UploadFile(f, rs).result.message == FailureMessage(rs.finalize, FinalizeFailedMessage)
    ensures rs.init.Ok? && rs.put.Ok? && rs.finalize.Ok? ==>
              UploadFile(f, rs).result.message == CompletedMessage(rs.finalize.body)
  {
  }

  /** The requests of a run: init first, the PUT only after init was ok, and
      finalize only after the PUT was ok. */
  lemma RunSendsInOrder(f: File, rs: Replies)
    ensures 1 <= |UploadFile(f, rs).requests| <= 3
    ensures UploadFile(f, rs).requests[0] == InitRequest(TitleFromFilename(f.name), f.name)
    ensures |UploadFile(f, rs).requests| >= 2 <==> rs.init.Ok?
    ensures |UploadFile(f, rs).requests| == 3 <==> rs.init.Ok? && rs.put.Ok?
    ensures |UploadFile(f, rs).requests| >= 2 ==> UploadFile(f, rs).requests[1] == PutRequest(rs.init.body.url, f, f.mimeType)
    ensures |UploadFile(f, rs).requests| == 3 ==> UploadFile(f, rs).requests[2] == FinalizeRequest(rs.init.body.uploadId)
  {
  }

  /** The states a run's progress record goes through: pending at 0, then
      uploading when the init request goes out, only ever forward, never
      "processing", ending with the result. */
  lemma RunMovesForward(f: File, rs: Replies)
    ensures |UploadFile(f, rs).trace| >= 3
    ensures UploadFile(f, rs).trace[0] == UploadProgress(f, Pending, 0, PreparingMessage, None)
    ensures UploadFile(f, rs).trace[1] == UploadProgress(f, Uploading, 0, InitializingMessage, None)
    ensures UploadFile(f, rs).trace[|UploadFile(f, rs).trace| - 1] == UploadFile(f, rs).result
    ensures Forward(UploadFile(f, rs).trace)
    ensures forall i :: 0 <= i < |UploadFile(f, rs).trace| ==> UploadFile(f, rs).trace[i].status != Processing
    // the percentage leaves 0 only after an ok PUT, and the upload id appears
    // only after an ok init, carrying init's id
    ensures forall i :: 0 <= i < |UploadFile(f, rs).trace| && UploadFile(f, rs).trace[i].progress != 0 ==>
              rs.init.Ok? && rs.put.Ok?
    ensures forall i :: 0 <= i < |UploadFile(f, rs).trace| && UploadFile(f, rs).trace[i].uploadId.Some? ==>
              rs.init.Ok? && UploadFile(f, rs).trace[i].uploadId == Some(rs.init.body.uploadId)
    ensures forall i :: 0 <= i < |UploadFile(f, rs).trace| ==> UploadFile(f, rs).trace[i].progress in {0, 50, 100}
  {
  }

  // ---- All files, one after another ----

  /** The index of the first record for `f`, if any (`findIndex(u => u.file === f)`). */
  function FindFile(list: seq<UploadProgress>, f: File): (r: Option<nat>)
    ensures r.Some? ==> r.value < |list| && list[r.value].file == f
    ensures r.Some? ==> forall j :: 0 <= j < r.value ==> list[j].file != f
    ensures r.None? ==> forall j :: 0 <= j < |list| ==> list[j].file != f
  {
    if |list| == 0 then None
    else if list[0].file == f then Some(0)
    else
      match FindFile(list[1..], f)
      case None => None
      case Some(i) => Some(i + 1)
  }

  /** `i` is the position of the first record for file `f`. */
  predicate FirstRecordAt(list: seq<UploadProgress>, f: File, i: int)
  {
    0 <= i < |list| && list[i].file == f && forall j :: 0 <= j < i ==> list[j].file != f
  }

  /** Replaces the first record for the result's file, or appends the result. */
  function ReplaceOrAppend(list: seq<UploadProgress>, result: UploadProgress): (r: seq<UploadProgress>)
    ensures forall i :: FirstRecordAt(list, result.file, i) ==> r == list[i := result]
    ensures (forall j :: 0 <= j < |list| ==> list[j].file != result.file) ==> r == list + [result]
  {
    match FindFile(list, result.file)
    case Some(i) => list[i := result]
    case None => list + [result]
  }

  /** How the uploads list takes one finished run: `uploadFile` pushed its
      record when it started (the same object, so by now showing the result),
      and the loop then writes the result over the first record for that file. */
  function RecordRun(list: seq<UploadProgress>, result: UploadProgress): (r: seq<UploadProgress>)
    ensures |r| == |list| + 1
    ensures r[|list|] == result
    ensures forall i :: FirstRecordAt(list, result.file, i) ==> r[..|list|] == list[i := result]
    ensures (forall j :: 0 <= j < |list| ==> list[j].file != result.file) ==> r == list + [result]
  {
    var pushed := list + [result];
    assert pushed[|list|].file == result.file;
    var r := ReplaceOrAppend(pushed, result);
    assert forall i :: FirstRecordAt(list, result.file, i) ==> FirstRecordAt(pushed, result.file, i);
    assert (forall j :: 0 <= j < |list| ==> list[j].file != result.file) ==>
             FirstRecordAt(pushed, result.file, |list|) && pushed[|list| := result] == pushed;
    r
  }

  /** A file picked twice: its second run is pushed at the end and also written
      over the first run's record, so both records show the second result. */
  lemma RepeatedFileShowsLastRun(list: seq<UploadProgress>, r1: UploadProgress, r2: UploadProgress)
    requires forall j :: 0 <= j < |list| ==> list[j].file != r1.file
    requires r2.file == r1.file
    ensures RecordRun(RecordRun(list, r1), r2) == list + [r2, r2]
  {
    var once := RecordRun(list, r1);
    assert once == list + [r1];
    assert FirstRecordAt(once, r2.file, |list|);
    assert once[|list| := r2] == list + [r2];
  }

  datatype UploaderState = UploaderState(
    files: seq<File>, uploads: seq<UploadProgress>, isUploading: bool, requests: seq<Request>)

  /** All requests the runs of `files` send, file by file. */
  function RequestsOf(files: seq<File>, replies: seq<Replies>): seq<Request>
    requires |replies| == |files|
  {
    if |files| == 0 then []
    else UploadFile(files[0], replies[0]).requests + RequestsOf(files[1..], replies[1..])
  }

  lemma {:induction false} RequestsOfSnoc(files: seq<File>, replies: seq<Replies>, i: nat)
    requires |replies| == |files| && i < |files|
    ensures RequestsOf(files[..i + 1], replies[..i + 1])
         == RequestsOf(files[..i], replies[..i]) + UploadFile(files[i], replies[i]).requests
  {
    if i == 0 {
      assert files[..1][1..] == [];
      assert replies[..1][1..] == [];
    } else {
      assert files[..i + 1][1..] == files[1..][..i];
      assert replies[..i + 1][1..] == replies[1..][..i];
      assert files[..i][1..] == files[1..][..i - 1];
      assert replies[..i][1..] == replies[1..][..i - 1];
      RequestsOfSnoc(files[1..], replies[1..], i - 1);
    }
  }

  /** Appending one more run's requests extends the log by that file's requests. */
  lemma LogOneMoreRun(base: seq<Request>, log: seq<Request>, files: seq<File>, replies: seq<Replies>, i: nat)
    requires |replies| == |files| && i < |files|
    requires log == base + RequestsOf(files[..i], replies[..i])
    ensures log + UploadFile(files[i], replies[i]).requests == base + RequestsOf(files[..i + 1], replies[..i + 1])
  {
    RequestsOfSnoc(files, replies, i);
  }

  predicate DistinctFiles(fs: seq<File>)
  {
    forall i, j :: 0 <= i < j < |fs| ==> fs[i] != fs[j]
  }

  /** The record each file's run ends with, file by file. */
  function Results(files: seq<File>, replies: seq<Replies>): (r: seq<UploadProgress>)
    requires |replies| == |files|
    ensures |r| == |files|
    ensures forall k :: 0 <= k < |r| ==> r[k].file == files[k]
  {
    seq(|files|, k requires 0 <= k < |files| => UploadFile(files[k], replies[k]).result)
  }

  /** With distinct files, no record so far is for the next file. */
  lemma NextFileIsNew(list: seq<UploadProgress>, files: seq<File>, replies: seq<Replies>)
    requires |replies| == |files| && |list| < |files|
    requires DistinctFiles(files) && list == Results(files, replies)[..|list|]
    ensures forall k :: 0 <= k < |list| ==> list[k].file != Results(files, replies)[|list|].file
  {
    var results := Results(files, replies);
    assert forall k :: 0 <= k < |list| ==> list[k].file == files[k];
  }

  /** So the next file's result is appended, and the records stay the
      results of the files run so far. */
  lemma RecordNextFile(list: seq<UploadProgress>, files: seq<File>, replies: seq<Replies>)
    requires |replies| == |files| && |list| < |files|
    requires DistinctFiles(files) && list == Results(files, replies)[..|list|]
    ensures RecordRun(list, Results(files, replies)[|list|]) == Results(files, replies)[..|list| + 1]
  {
    var results := Results(files, replies);
    NextFileIsNew(list, files, replies);
    assert results[..|list| + 1] == list + [results[|list|]];
  }

  /** Two page states agree on the picked files and on `isUploading`. */
  predicate SamePage(a: UploaderState, b: UploaderState)
  {
    a.files == b.files && a.isUploading == b.isUploading
  }

  /** `st` is the page state once the first `i` files have run from `start`:
      their requests are on the log, there is one record per file run, and with
      distinct files those records are the files' results. */
  predicate RanFirst(start: UploaderState, replies: seq<Replies>, i: nat, st: UploaderState)
    requires |replies| == |start.files| && i <= |start.files|
  {
    && SamePage(st, start)
    && st.requests == start.requests + RequestsOf(start.files[..i], replies[..i])
    && |st.uploads| == i
    && (DistinctFiles(start.files) ==> st.uploads == Results(start.files, replies)[..i])
  }

  /** One step of the loop of `handleUpload`: file `i` runs, its result goes
      into the records and its requests onto the log. */
  method RunNextFile(start: UploaderState, replies: seq<Replies>, i: nat, state: UploaderState)
    returns (next: UploaderState)
    requires |replies| == |start.files| && i < |start.files|
    requires RanFirst(start, replies, i, state)
    ensures RanFirst(start, replies, i + 1, next)
  {
    var files := start.files;
    var run := UploadFile(files[i], replies[i]);
    LogOneMoreRun(start.requests, state.requests, files, replies, i);
    if DistinctFiles(files) {
      RecordNextFile(state.uploads, files, replies);
    }
    next := state.(uploads := RecordRun(state.uploads, run.result), requests := state.requests + run.requests);
  }

  /** The loop of `handleUpload`, from the page state `start` it leaves
      behind: the files run one at a time, in order, each result going into
      the list of records and each request onto the log. The loop itself never
      touches `files` or `isUploading`; `snapshots` holds the page state after
      each file. */
  method UploadInOrder(start: UploaderState, replies: seq<Replies>)
    returns (final: UploaderState, snapshots: seq<UploaderState>)
    requires |replies| == |start.files| && start.uploads == []
    ensures RanFirst(start, replies, |start.files|, final)
    ensures |snapshots| == |start.files|
    ensures forall k :: 0 <= k < |snapshots| ==> SamePage(snapshots[k], start)
    ensures |snapshots| > 0 ==> snapshots[|snapshots| - 1] == final
  {
    final, snapshots := start, [];
    var i := 0;
    while i < |start.files|
      invariant 0 <= i <= |start.files|
      invariant RanFirst(start, replies, i, final)
      invariant |snapshots| == i
      invariant forall k :: 0 <= k < i ==> SamePage(snapshots[k], start)
      invariant i > 0 ==> snapshots[i - 1] == final
    {
      final := RunNextFile(start, replies, i, final);
      snapshots := snapshots + [final];
      i := i + 1;
    }
  }

  /** Once every file has run, the log holds all their requests and, with
      distinct files, the records are exactly their results. */
  lemma RanAll(start: UploaderState, replies: seq<Replies>, final: UploaderState)
    requires |replies| == |start.files|
    requires RanFirst(start, replies, |start.files|, final)
    ensures final.requests == start.requests + RequestsOf(start.files, replies)
    ensures |final.uploads| == |start.files|
    ensures DistinctFiles(start.files) ==> final.uploads == Results(start.files, replies)
  {
    var n := |start.files|;
    WholePrefix(start.files, n);
    WholePrefix(replies, n);
    WholePrefix(Results(start.files, replies), n);
  }

  lemma WholePrefix<T>(s: seq<T>, n: nat)
    requires n == |s|
    ensures s[..n] == s
  {
  }

  /** `handleUpload`: nothing happens without files; otherwise `isUploading`
      is set and the list of records cleared, the files run one after another,
      and `isUploading` is cleared at the end. */
  method HandleUpload(st: UploaderState, replies: seq<Replies>)
    returns (out: UploaderState, snapshots: seq<UploaderState>)
    requires |replies| == |st.files|
    ensures |st.files| == 0 ==> out == st && snapshots == []
    ensures |st.files| > 0 ==> out.files == st.files && !out.isUploading
    ensures |snapshots| == |st.files|
    ensures forall i :: 0 <= i < |snapshots| ==> snapshots[i].isUploading && snapshots[i].files == st.files
    ensures |st.files| > 0 ==> out.requests == st.requests + RequestsOf(st.files, replies)
    ensures |st.files| > 0 ==> |out.uploads| == |st.files|
    ensures |st.files| > 0 && DistinctFiles(st.files) ==>
              forall i :: 0 <= i < |st.files| ==> out.uploads[i] == UploadFile(st.files[i], replies[i]).result
  {
    if |st.files| == 0 {
      return st, [];
    }
    var busy := st.(isUploading := true, uploads := []);
    var final;
    final, snapshots := UploadInOrder(busy, replies);
    RanAll(busy, replies, final);
    out := final.(isUploading := false);
    if DistinctFiles(st.files) {
      assert out.uploads == Results(st.files, replies);
    }
  }
}
